=== FILE: README.md ===
# Simple Shopping List: persistence, migration and view state, in Dafny

This project models the persistence and migration layer of the Simple Shopping List
app, and the two layers above it that the list screen goes through. It then proves
properties of that model. The modelled parts are:

- `Result` and the typed error classes (`AppError` and its six subclasses);
- the two repository wrappers of `BaseRepository`;
- `IngredientRepository`, which does CRUD over the `ingredients` table;
- the schema-version store (`initializeDatabase`, `getDatabaseVersion`, `updateDatabaseVersion`);
- the three-step migration (`createTables`, the one-time move of the legacy key-value list, the version stamp);
- the start-up orchestrator `initializeAndMigrateDatabase`;
- `IngredientService`, with its load-once cache, name validation and batch update;
- the `useIngredients` reducer with its optimistic toggle and rename.

Modelling conventions:

- **Exceptions.** A call that may throw returns `Outcome<T, X>`, either `Normal(value)` or `Throw(exception)`. Thrown values are `Errors.Thrown`: an `AppError` or a plain `Error` with its message.
- **The database.** SQLite is the abstract `Sqlite.Store`. It holds:
  - each of the two tables, absent or present;
  - the `ingredients` rows, as a map keyed by the primary key `id`;
  - the `database_version` rows, as an append-only sequence;
  - `failing`, the set of statement kinds the engine rejects. This stands in for engine faults the code cannot see.
- **Transactions.** A transaction keeps the body's store, or rolls back to the store it started from.
- **Outside inputs.** Everything the code reads from outside is a parameter:
  - `Date.now()` is `now`, `migrateNow`, `stampNow`, `addNow` or `updateNow`;
  - `uuidv4()` is `freshId`;
  - the AsyncStorage list is `legacy` (a list, `null`, or a throw);
  - the repository behind the service is an abstract state with `getAll`/`add`/`update` functions.
- **Async code.** `async` code runs sequentially.

Where the code and the tests disagree, the model follows the code:

- `ingredient-repository.ts` does not extend `BaseRepository`. Its operations log and rethrow, and the model does the same.
- `database.ts` returns plain values and `void`, and `migrations.ts` rethrows raw errors. Both are modelled as written.
- `data-migration.ts` imports a `checkDatabaseInitialized` that `database.ts` does not export, and it treats all three collaborators as returning `Result`. `DataMigration.InitializeAndMigrateDatabase` therefore takes the three awaited outcomes as inputs. The adapters `CheckDatabaseInitialized`, `GetDatabaseVersionResult` and `MigrationResult` connect it to the concrete store for the composed start-up lemmas.
- `reorderIngredients` only logs; it does not throw a `NotImplementedError`. There is no `updateName`.
- Nothing enforces `created_at <= updated_at`. An `add` with caller-supplied timestamps stores them as given.

Some consequences the proofs make explicit:

- `IngredientService.GetIngredients` and `IngredientService.Update` swallow every error. So the catch branches of the hook's list actions cannot be reached through the service. `UseIngredients.FailedWriteStillShown` states what happens when the engine rejects `UPDATE`: the screen keeps the optimistic list with no error, while the service cache and the table keep the old one.
- `created_at || now` replaces a timestamp of 0 as well as a missing one (`Ingredients.OrNow`). An `AddIngredients` call made at `now == 0` therefore stores the repository's own clock reading.
- `createTables` commits before the legacy batch starts. A failed legacy batch therefore leaves both tables in place and no version stamp (`Migrations.LegacyFailureKeepsTables`). Since `database_version` now exists, the next start is not a first run: it migrates with `isFirstRun = false`, and the legacy list is never read again (`DataMigration.FailedLegacyMigrationIsNotRetried`).
- `getDatabaseVersion` reads 0 when `SELECT version` fails. On an engine that rejects that query, every start-up therefore migrates. The first start stamps `DB_VERSION`; the next one migrates as a later run and its stamp collides with that row under the primary key, so every later start-up fails with a `DbMigrationError` (`DataMigration.UnreadableVersionFailsLaterStarts`; `DataMigration.UnreadableVersionFirstStartSucceeds` shows such a first start exists).

## Model

| member | source | states |
|---|---|---|
| Results.Ok | api/common/result.ts:14-16 | `ok(v)` is a success with no error, keeping `v` (null included) |
| Results.Fail | api/common/result.ts:21-23 | `fail(e)` is a failure with no value, carrying `e` |
| Results.GetValue | api/common/result.ts:35-40 | returns the value exactly on success; on failure throws the stored error, or the generic "Cannot get value from a failed Result" Error when none is stored |
| Results.PropagateFailure | api/common/result.ts:53-55 | re-failing a failure keeps its error (possibly null) and has no value |
| Results.Map | api/common/result.ts:52-61 | a failure passes through untouched; on success, a returning callback gives `ok` of its value and a throwing one gives `fail` of the thrown error |
| Results.AsyncMap | api/common/result.ts:66-78 | a failure passes through; a success ends as a success exactly when the callback neither throws nor returns a rejected promise |
| Results.FromPromise | api/common/result.ts:83-93 | a resolved promise gives `ok(value)`; a rejected one gives `fail(errorMapper(reason))` |
| Results.FromPromiseDefault | api/common/result.ts:85-91 | with the default mapper, a rejection's reason becomes the error unchanged |
| Results.Success | api/common/result.ts:28-30 | on a result the constructors built, `success` holds exactly when no error is stored |
| Results.GetError | api/common/result.ts:45-47 | on a constructor-built result an error is returned exactly on failure; on a failure, `getError()` is the error `getValue()` throws, and a null one means `getValue()` throws the generic Error |
| Results.OkUnwraps | api/common/result.ts:35-47 | `ok(v)` reports success, `getValue()` returns exactly `v`, and `getError()` is null |
| Results.FailUnwraps | api/common/result.ts:36-38 | `fail(e)` reports failure, `getError()` is `e`, and `getValue()` throws exactly `e` |
| Results.FailWithoutErrorThrowsGeneric | api/common/result.ts:37 | a failure holding no error throws the generic Error |
| Results.MapFailureIgnoresFn | api/common/result.ts:53-55 | `map` on a failure does not depend on the callback and keeps the error |
| Results.MapIdentity | api/common/result.ts:56-57 | mapping the identity leaves any result built by `ok`/`fail` unchanged |
| Results.MapComposes | api/common/result.ts:52-61 | mapping `f` then `g` equals mapping their composition, where a throw from `f` skips `g` |
| Results.AsyncMapIsMapOfAwait | api/common/result.ts:66-78 | `asyncMap(fn)` equals `map` with the awaited `fn`: a rejection behaves like a throw |
| Results.FromPromiseDefaultIsIdentity | api/common/result.ts:85-91 | the default `fromPromise` is `ok` of the resolved value or `fail` of the reason |
| Errors.NewDbConnectionError | api/common/error-types.ts:15-22 | `name` is the class name; an omitted message defaults to "Failed to connect to database"; the cause is kept |
| Errors.NewDbQueryError | api/common/error-types.ts:27-36 | `name` is the class name; the default message is "Database query failed"; operation, entity and cause are kept |
| Errors.NewDbMigrationError | api/common/error-types.ts:41-49 | `name` is the class name; the default message is "Database migration failed"; version and cause are kept |
| Errors.NewNotFoundError | api/common/error-types.ts:54-62 | `name` is the class name; the default message is "Item not found"; entity type and id are kept |
| Errors.NewValidationError | api/common/error-types.ts:67-74 | `name` is the class name; the default message is "Validation failed"; the field is kept |
| Errors.NewNotImplementedError | api/common/error-types.ts:79-86 | `name` is the class name; the default message is "This feature is not implemented yet"; the feature is kept |
| Errors.NameIdentifiesKind | api/common/error-types.ts:4-10 | two errors have the same `name` exactly when they are of the same class |
| Sqlite.MaxVersion | database/database.ts:64-67 | `ORDER BY version DESC LIMIT 1` finds nothing exactly on an empty table; otherwise it finds a stored version no smaller than any other |
| Sqlite.VersionTableListed | database/database.ts:56-62 | the catalog lookup throws exactly when the engine rejects it; otherwise it says whether `database_version` exists |
| Sqlite.CreateIngredients | database/migrations.ts:9-17 | `IF NOT EXISTS`: an existing table and its rows are kept; a missing one is created empty |
| Sqlite.CreateVersions | database/migrations.ts:19-24 | `IF NOT EXISTS` for `database_version`: existing rows are kept; a missing table is created empty |
| Sqlite.SelectAll | database/ingredient-repository.ts:24-34 | a query over `ingredients` sees the whole table, and throws when the table is missing or the engine rejects it |
| Sqlite.InsertRow | database/ingredient-repository.ts:94-102 | an insert adds exactly one row; a missing table, a rejected statement or an existing `id` throws and changes nothing |
| Sqlite.UpdateRow | database/ingredient-repository.ts:117-125 | `UPDATE ... WHERE id = ?` rewrites only the matching row; with no match nothing changes and no error is raised |
| Sqlite.DeleteRow | database/ingredient-repository.ts:167 | `DELETE ... WHERE id = ?` removes only that key |
| Sqlite.SelectLatestVersion | database/database.ts:64-67 | the version query returns the largest stored version, or nothing on an empty table |
| Sqlite.InsertVersionRow | database/database.ts:100-104 | appends one `(version, migration_date)` row; a stored version, a missing table or a rejected statement throws and changes nothing |
| Sqlite.Transaction | database/migrations.ts:53-59 | `withTransactionAsync` keeps the body's effects when it returns, and restores the starting store and rethrows when it throws |
| Sqlite.InsertVersionKeepsDistinct | database/database.ts:93-104 | a successful version insert keeps `version` a primary key |
| Ingredients.EncodeCompleted | database/ingredient-repository.ts:99 | `completed ? 1 : 0` stores 0 or 1, and 1 exactly for a completed item |
| Ingredients.DecodeCompleted | database/ingredient-repository.ts:39 | `=== 1` reads the stored 1 as completed and 0, or any value other than 1, as not completed |
| Ingredients.ToRow | database/ingredient-repository.ts:94-101 | the inserted row keeps the name, stores `completed` as 0/1 (1 exactly when completed), and keeps each non-zero timestamp while a missing or zero one becomes `now`; migrations.ts:86-93 binds the same values |
| Ingredients.FromRow | database/ingredient-repository.ts:36-42 | the mapped object has the row's id and both timestamps; a row holding 0/1 and non-zero timestamps is exactly what inserting that object writes, at any clock reading |
| Ingredients.OrNow | database/ingredient-repository.ts:100-101 | the `or now` default keeps a non-zero timestamp and replaces a missing or zero one by `now` |
| Ingredients.CompletedRoundTrip | database/ingredient-repository.ts:99 | reading back the stored flag with `=== 1` (line 39) gives the original boolean |
| Ingredients.StoredCompletedRoundTrip | database/ingredient-repository.ts:39 | decoding and re-encoding a stored flag gives it back exactly when it is 0 or 1 |
| Ingredients.RowRoundTrip | database/ingredient-repository.ts:94-101 | inserting an ingredient and decoding its row gives it back, with each missing or zero timestamp defaulted to `now` |
| IngredientRepository.InsertionPoint | database/ingredient-repository.ts:33 | returns the position in a sorted listing that splits it into the rows ordered before a row and the rows ordered after it |
| IngredientRepository.InsertSorted | database/ingredient-repository.ts:33 | inserting one new row into an ordered, key-distinct listing keeps it ordered and key-distinct, and adds exactly that row |
| IngredientRepository.SortRows | database/ingredient-repository.ts:31-33 | lists every row of the table exactly once, in `ORDER BY completed ASC, created_at DESC` order |
| IngredientRepository.DecodeEntries | database/ingredient-repository.ts:36-42 | decodes each row in place, keeping the order |
| IngredientRepository.DecodedEntriesAreListing | database/ingredient-repository.ts:36-42 | decoding an ordered, complete, key-distinct row list gives a valid `getAll` answer |
| IngredientRepository.GetAll | database/ingredient-repository.ts:22-47 | returns exactly when the table exists and the query is accepted; the answer holds every row once, decoded, in `ORDER BY` order |
| IngredientRepository.ListingOrder | database/ingredient-repository.ts:33 | with 0/1 flags, no completed item comes before an incomplete one, and within a group `created_at` does not increase |
| IngredientRepository.EmptyListing | database/ingredient-repository.ts:36 | an empty table lists as `[]` |
| IngredientRepository.GetById | database/ingredient-repository.ts:54-84 | returns the decoded row for `id`, or null exactly when no row has that id; engine errors are rethrown |
| IngredientRepository.Add | database/ingredient-repository.ts:90-107 | succeeds exactly when the table exists, the insert is accepted and the id is new; then adds one row with defaulted timestamps; otherwise changes nothing |
| IngredientRepository.Update | database/ingredient-repository.ts:113-133 | sets the name and completed flag, and `updated_at = now`, on the matching row; `created_at` and other rows stay; an absent id is a successful no-op |
| IngredientRepository.UpdateCompletion | database/ingredient-repository.ts:140-159 | changes only `completed` and `updated_at` of the matching row |
| IngredientRepository.Remove | database/ingredient-repository.ts:165-172 | removes the row with that id; an absent id succeeds and changes nothing |
| IngredientRepository.ReorderIngredients | database/ingredient-repository.ts:178-182 | completes without error and leaves the store as it was |
| IngredientRepository.AddThenGetById | database/ingredient-repository.ts:90-107 | after a successful `add`, `getById` returns the item with its defaulted timestamps |
| IngredientRepository.RemoveThenGetById | database/ingredient-repository.ts:165-172 | after a successful `remove`, `getById` returns null |
| IngredientRepository.WritersKeepCompletedBit | database/ingredient-repository.ts:99 | every writer keeps every stored `completed` at 0 or 1 |
| BaseRepository.ExecuteQuery | database/base-repository.ts:31-51 | success gives `ok(data)` and no log line, and any state change stays; a throw gives a `DbQueryError` "Failed to op entity(s)" with operation, entity and cause, plus exactly one "Error during ..." log line |
| BaseRepository.ExecuteTransaction | database/base-repository.ts:60-81 | success commits and gives `ok(undefined)`; a throw rolls the state back and gives the same `DbQueryError`, plus one "Error during transactional ..." log line |
| BaseRepository.TransactionDiffersOnlyInRollback | database/base-repository.ts:31-81 | on the same write, both wrappers agree on success and on the error; they differ only in the state a failure leaves |
| Database.InitializeDatabase | database/database.ts:23-44 | it is a first run exactly when `database_version` is missing, and also when the catalog query throws |
| Database.GetDatabaseVersion | database/database.ts:49-72 | returns the largest stored version; 0 when the table is missing or empty, or on any error; every non-zero answer is a stored version |
| Database.UpdateDatabaseVersion | database/database.ts:77-109 | succeeds exactly when the catalog query works, the table exists or can be created, the insert is accepted and the version is new; on success the one row `(version, now)` is appended; `ingredients` is never touched; on a throw, a version table created before the failed insert stays and nothing else changes |
| Database.StampIsAppendOnly | database/database.ts:90-104 | stamping keeps the earlier rows as a prefix and the version key unique |
| Database.StampThenRead | database/database.ts:64-67 | on a store whose catalog and `SELECT version` queries are accepted, after a successful stamp of `v` the version read back is at least `v` and it is not a first run |
| Migrations.CreateTables | database/migrations.ts:50-64 | both tables exist afterwards: an existing table keeps its rows and a missing one is created empty, and nothing else changes; on a throw neither change persists |
| Migrations.InsertAll | database/migrations.ts:85-95 | the insert loop succeeds exactly when every id is new to the table and unique in the batch; each record gets its row, and existing rows stay |
| Migrations.MigrateFromAsyncStorage | database/migrations.ts:69-105 | a `getItem` throw is rethrown; a missing or empty list is a no-op; otherwise the whole batch is inserted with one `now`, or on failure the store is unchanged |
| Migrations.ExecuteMigrations | database/migrations.ts:31-45 | steps run in order (create tables, legacy only on a first run, stamp), and the first throw stops the rest; success leaves both tables, appends exactly the `DB_VERSION` row to the earlier version history, keeps every existing ingredient row, adds exactly the legacy records (each as its insert row) on a first run, and changes no ingredient on a later run; the run returns exactly when every step it takes returns; a throw is the failing step's own exception, ends the steps there, and keeps what the committed earlier steps did (a failed legacy batch leaves the created tables, a failed stamp leaves the created and migrated tables) |
| Migrations.CreateTablesIdempotent | database/migrations.ts:50-64 | creating the tables a second time changes nothing |
| Migrations.NotFirstRunIgnoresLegacy | database/migrations.ts:39-41 | without a first run the legacy source is never read: the run does not depend on it |
| Migrations.LegacyFailureKeepsTables | database/migrations.ts:36-44 | a failed legacy batch ends the run unstamped, with exactly the tables the first step created |
| Migrations.DuplicateLegacyIdRollsBack | database/migrations.ts:82-96 | a repeated id anywhere in the batch fails the step and leaves the store unchanged |
| Migrations.MissingTimestampsShareNow | database/migrations.ts:82-94 | every missing timestamp in one batch gets the same `now` |
| DataMigration.InitializeAndMigrateDatabase | database/data-migration.ts:20-77 | a failed check is returned unchanged with nothing else run; a failed version check gives `DbConnectionError("Failed to get database version")` around its error; migrations run exactly when it is a first run or the version is below `DB_VERSION`, with `isFirstRun` passed through; a migration failure is returned unchanged; null reads as version 0; a throw from the check, from the version call or from the migrations, and a check that resolves to null data, each become `DbConnectionError("Failed to initialize database")` around the thrown value; the version is checked exactly when the check passed |
| DataMigration.CheckDatabaseInitialized | database/data-migration.ts:25-34 | over the concrete store the check succeeds, carrying `initializeDatabase`'s answer |
| DataMigration.GetDatabaseVersionResult | database/data-migration.ts:37-48 | over the concrete store the version call succeeds, carrying `getDatabaseVersion`'s number |
| DataMigration.MigrationResult | database/data-migration.ts:53-57 | a migration run succeeds exactly when it returned; a throw becomes a `DbMigrationError` for `DB_VERSION` |
| DataMigration.SecondStartDoesNotMigrate | database/data-migration.ts:51 | on a store whose catalog and `SELECT version` queries are accepted, a second start-up after a successful one succeeds without migrating |
| DataMigration.UnreadableVersionFailsLaterStarts | database/data-migration.ts:48-57 | on a store that rejects `SELECT version`, a start-up after a successful one migrates as a later run and fails with a `DbMigrationError`, because the version reads as 0 and the re-stamp collides |
| DataMigration.UnreadableVersionFirstStartSucceeds | database/data-migration.ts:51-68 | a fresh file that rejects `SELECT version` and has no legacy data starts up successfully once |
| DataMigration.FreshStoreMigrates | database/data-migration.ts:51-68 | a fresh file with no legacy data migrates as a first run, ending with an empty `ingredients` table and the single version row `DB_VERSION` |
| DataMigration.FailedLegacyMigrationIsNotRetried | database/data-migration.ts:34-53 | after a first start whose legacy batch fails, the next start finds the version table, is not a first run, and migrates without reading the legacy list |
| IngredientService.Trim | api/ingredient-service.tsx:34 | the trimmed name is a slice of the name whose cut-off prefix and suffix are all white space, and it neither starts nor ends with white space |
| IngredientService.TrimEmptyIffBlank | api/ingredient-service.tsx:34 | `!name.trim()` holds exactly when every character of the name is white space or a line terminator |
| IngredientService.GetIngredients | api/ingredient-service.tsx:16-28 | the repository is asked exactly on the first call; a successful first load becomes the cache; a failed one returns `[]` and keeps the old cache; later calls return the cache |
| IngredientService.NewServiceLoads | api/ingredient-service.tsx:8-9 | a new service starts with an empty cache and `initialLoad` set, so its first `GetIngredients` asks the repository and caches a successful answer |
| IngredientService.LoadsOnce | api/ingredient-service.tsx:18-23 | a second call never asks the repository and returns the cache the first one left |
| IngredientService.FailedFirstLoadSticks | api/ingredient-service.tsx:19-27 | after a failed first load of a new service, later calls also return `[]` |
| IngredientService.AddIngredients | api/ingredient-service.tsx:30-59 | a blank name gets "Ingredient name can't be empty" without a repository call; otherwise one `add` of the untrimmed name, incomplete, with the fresh id and both timestamps `now`; on success the item is prepended and `{true, ""}` returned; on failure "Failed to add ingredient" with the cache unchanged |
| IngredientService.Trace | api/ingredient-service.tsx:64-66 | the loop's repository states: each `update` call runs on the state the previous call left |
| IngredientService.UpdateEach | api/ingredient-service.tsx:64-66 | every call returned exactly when each item's `update`, on the state the previous call left, returns; then all items were passed and the repository is the state after the last one; otherwise the items up to and including the first throwing one were passed, all calls before it returned, and the repository is the state that throw left |
| IngredientService.Update | api/ingredient-service.tsx:61-73 | when every call on the passed-along states returns, the cache becomes the items and all were written; otherwise the cache is unchanged, the loop stopped at the first throw, and the earlier writes stay |
| IngredientService.ThrowKeepsCache | api/ingredient-service.tsx:61-73 | a first throw at any item `k` ends the loop there: exactly the items up to `k` are passed, their writes stay, and the cache is unchanged |
| IngredientService.UpdateWithoutThrowReplacesCache | api/ingredient-service.tsx:61-73 | when the calls the loop makes all return, every item is written in order and the cache becomes the items |
| IngredientService.AddOverStore | api/ingredient-service.tsx:39-54 | over the SQLite repository, a valid name with a new id succeeds, heads the cache, and is stored incomplete with `created_at = updated_at = now` |
| IngredientService.UpdateOverStore | api/ingredient-service.tsx:61-73 | over the SQLite repository, the cache becomes the items exactly when the table exists and `UPDATE` is accepted (or it already held them) |
| UseIngredients.Reduce | hooks/useIngredients.ts:27-58 | each action writes only its own fields: the ingredient-writing actions set their list, the fetch actions set `isLoading`, the two error actions set their message, other known actions clear the error, and an unknown action changes nothing |
| UseIngredients.InitialStateIsLoading | hooks/useIngredients.ts:62-71 | the first render shows an empty list, loading, with no error, so the mount-time `FETCH_START` leaves it unchanged |
| UseIngredients.FetchCycle | hooks/useIngredients.ts:32-40 | a fetch that starts and then succeeds shows exactly the fetched list, not loading, with no error |
| UseIngredients.FetchFailureKeepsList | hooks/useIngredients.ts:32-42 | a fetch that starts and then fails keeps the list, stops loading and shows the message |
| UseIngredients.ClearErrorIdempotent | hooks/useIngredients.ts:53-54 | clearing the error twice is clearing it once; list and loading flag stay |
| UseIngredients.OptimisticThenRollback | hooks/useIngredients.ts:43-52 | an optimistic update followed by a rollback to the list captured before it restores that list and sets the error |
| UseIngredients.ToggleCompletion | hooks/useIngredients.ts:93-98 | same length and order; `completed` flips exactly on elements with the id; all other fields stay |
| UseIngredients.Rename | hooks/useIngredients.ts:124-129 | same length and order; `name` becomes the new name exactly on elements with the id; all other fields stay |
| UseIngredients.ToggleInvolution | hooks/useIngredients.ts:93-98 | toggling the same id twice gives back the original list |
| UseIngredients.RenameIdempotent | hooks/useIngredients.ts:124-129 | renaming to the same name twice is renaming once |
| UseIngredients.AbsentIdChangesNothing | hooks/useIngredients.ts:93-129 | an id that no element has leaves both mappings without effect |
| UseIngredients.ToggleIngredientCompletion | hooks/useIngredients.ts:91-119 | when the awaited update returns, the list shows the toggle with no error; when it throws, the list is the original one and the error reads "Failed to update completion: " plus the message; `isLoading` is untouched |
| UseIngredients.ChangeIngredientName | hooks/useIngredients.ts:122-151 | when the awaited update returns, the list shows the new name with no error; when it throws, the list is the original one and the error reads "Failed to change name: " plus the message |
| UseIngredients.FailedWriteStillShown | hooks/useIngredients.ts:102-118 | because the service's `Update` never throws, a rejected `UPDATE` still leaves the toggled list on screen with no error, while the service cache and the table keep the old list |

## Left out

- The SQLite engine itself: SQL text and its parsing, `getDatabase`/`openDatabaseSync` and the `DB_NAME` file. Tables are abstract maps and sequences. Engine faults (I/O errors, locking) are the `failing` input rather than modelled causes. `failing` is a fixed set of statement kinds: there is no BEGIN/COMMIT kind, so a transaction cannot fail on its own, and a fault cannot hit one statement while a later statement of the same kind succeeds.
- The logger and `console` output. `BaseRepository` keeps the list of `logger.error` calls it makes. Elsewhere logging is dropped, since it does not affect results.
- AsyncStorage `getItem`, `uuidv4` and `Date.now`. They are inputs; the fresh id carries no uniqueness guarantee of its own.
- `async`/`await` scheduling. Calls run to completion one after another, and no interleaving of two service calls or two hook actions is modelled.
- React plumbing: `useReducer`, the `useEffect` that fetches on mount, and the closure capture of `state`. The list actions are modelled with the awaited call as an input and the dispatches applied in order.
- UseIngredients.ToggleIngredientCompletion: the "Unknown error" branch for a thrown non-`Error` value is not modelled, because every thrown value in the model is an `Error`.
- Results.Map: the source casts whatever the callback throws to `E` unchecked; the model's callback can only throw an `E`.
- Results.AsyncMap: the same unchecked `err as E` cast; the model's callback and its promise can only fail with an `E`.
- Results.FromPromise: the error mapper is a total function, so the case where `errorMapper` itself throws inside the `catch`, making `fromPromise` reject, is not modelled; nothing in the modelled code calls `fromPromise`.
- `Error.captureStackTrace` and stack traces.
- Array aliasing in `IngredientService` (`unshift` on, and assignment of, caller-visible arrays). The cache is a value.
- JavaScript number details: timestamps and versions are integers; `NaN` and fractional values are not modelled.
- IngredientRepository.GetAll: rows equal on both sort keys may come back in any order, as SQLite leaves their order unspecified.
- DataMigration.InitializeAndMigrateDatabase: the `TypeError` raised by `initData!.isFirstRun` on `ok(null)` is given a fixed message, as the exact text depends on the JavaScript engine.
- IngredientService.StoreUpdate: every `update` call of one `Update` reads the same `Date.now()`, whereas the repository reads the clock on each call; no property here depends on the individual `updated_at` values.
- Legacy records written by `app/ingredientService.tsx` via `new Ingredient(name)` may lack an `id` and timestamps, yet `migrations.ts` binds `ingredient.id` as stored. The model's `Ingredient` always carries a string id, so legacy records are assumed to carry ids.
- UI components, navigation, theming, `app/ingredientService.tsx` (the older key-value service), `types/Ingredient.tsx`, and configuration and test scaffolding. They are not part of this model.

=== FILE: base_repository.dfy ===
/**
 * database/base-repository.ts: the two wrappers a repository runs its statements through.
 *
 * A wrapped operation is a step over some abstract state `S` that returns or throws.
 * Both wrappers catch every throw and turn it into a failed `Result` carrying a
 * `DbQueryError`, logging it once; the transactional one also rolls the state back.
 * The logger is kept only as the list of `logger.error` calls a wrapper makes.
 */
module BaseRepository {
  import opened Results
  import opened Errors

  /** One `logger.error(message, error)` call. */
  datatype LogEntry = LogEntry(message: string, error: AppError)

  /** One run of a wrapped operation: the state it leaves and whether it returned or threw. */
  datatype Step<S, T> = Step(state: S, outcome: Outcome<T, Thrown>)

  /** What a wrapper hands back: the state afterwards, the `Result`, and the error log lines written. */
  datatype Wrapped<S, T> = Wrapped(state: S, result: Result<T, AppError>, log: seq<LogEntry>)

  /** `Failed to ${operationName} ${this.entityName}(s)`. */
  function FailureMessage(operationName: string, entityName: string): string
  {
    "Failed to " + operationName + " " + entityName + "(s)"
  }

  /** The error both wrappers build around a caught exception. */
  function WrapError(operationName: string, entityName: string, cause: Thrown): AppError
  {
    NewDbQueryError(Some(FailureMessage(operationName, entityName)), Some(operationName), Some(entityName), Some(cause))
  }

  /** `_executeQuery(queryFn, operationName)`: no rollback, so whatever `queryFn` changed stays changed. */
  function ExecuteQuery<S, T>(s: S, queryFn: S -> Step<S, T>, operationName: string, entityName: string): (w: Wrapped<S, T>)
    ensures WellFormed(w.result)
    ensures w.state == queryFn(s).state
    ensures w.result.isSuccess <==> queryFn(s).outcome.Normal?
    ensures w.result.isSuccess ==> w.result.value == Some(queryFn(s).outcome.value) && w.log == []
    ensures !w.result.isSuccess ==>
      var e := w.result.error.value;
      && Name(e) == "DbQueryError"
      && e.message == "Failed to " + operationName + " " + entityName + "(s)"
      && e.operation == Some(operationName) && e.entity == Some(entityName)
      && e.originalError == Some(queryFn(s).outcome.exception)
      && w.log == [LogEntry("Error during " + operationName + " " + entityName + "(s)", e)]
  {
    var step := queryFn(s);
    match step.outcome
    case Normal(data) => Wrapped(step.state, Ok(Some(data)), [])
    case Throw(x) =>
      var e := WrapError(operationName, entityName, x);
      Wrapped(step.state, Fail(e), [LogEntry("Error during " + operationName + " " + entityName + "(s)", e)])
  }

  /**
   * `_executeTransaction(queryFn, operationName)`: `withTransactionAsync` commits what
   * `queryFn` did, or rolls back to `s` when it throws; success carries `undefined`.
   */
  function ExecuteTransaction<S>(s: S, queryFn: S -> Step<S, ()>, operationName: string, entityName: string): (w: Wrapped<S, ()>)
    ensures WellFormed(w.result)
    ensures w.result.isSuccess <==> queryFn(s).outcome.Normal?
    ensures w.result.isSuccess ==> w.state == queryFn(s).state && w.result.value == None && w.log == []
    ensures !w.result.isSuccess ==>
      var e := w.result.error.value;
      && w.state == s
      && Name(e) == "DbQueryError"
      && e.message == "Failed to " + operationName + " " + entityName + "(s)"
      && e.operation == Some(operationName) && e.entity == Some(entityName)
      && e.originalError == Some(queryFn(s).outcome.exception)
      && w.log == [LogEntry("Error during transactional " + operationName + " " + entityName + "(s)", e)]
  {
    var step := queryFn(s);
    match step.outcome
    case Normal(_) => Wrapped(step.state, Ok(None), [])
    case Throw(x) =>
      var e := WrapError(operationName, entityName, x);
      Wrapped(s, Fail(e), [LogEntry("Error during transactional " + operationName + " " + entityName + "(s)", e)])
  }

  /**
   * The two wrappers report the same success or the same error for a write; they
   * differ only in what state a failure leaves and in the wording of the log line.
   */
  lemma TransactionDiffersOnlyInRollback<S>(s: S, queryFn: S -> Step<S, ()>, operationName: string, entityName: string)
    ensures var q := ExecuteQuery(s, queryFn, operationName, entityName);
            var t := ExecuteTransaction(s, queryFn, operationName, entityName);
            && t.result.isSuccess == q.result.isSuccess
            && t.result.error == q.result.error
            && |t.log| == |q.log|
            && (q.result.isSuccess ==> t.state == q.state)
            && (!q.result.isSuccess ==> t.state == s)
  {
  }
}

=== FILE: data_migration.dfy ===
/**
 * database/data-migration.ts: the start-up orchestrator.
 *
 * The file treats its three collaborators (`checkDatabaseInitialized`,
 * `getDatabaseVersion`, `executeMigrations`) as returning `Result`s, which is how its
 * tests mock them; database.ts and migrations.ts as written return plain values and
 * throw instead. So the orchestrator takes the collaborators' outcomes as inputs
 * (each awaited call yields a `Result` or rejects), and the Result-returning adapters
 * below connect it to the concrete store for the composed properties.
 */
module DataMigration {
  import opened Results
  import opened Errors
  import opened Sqlite
  import opened Ingredients
  import opened Database
  import opened Migrations

  /** An awaited collaborator: it resolves to a `Result` or rejects with a thrown value. */
  type Call<T> = Outcome<Result<T, AppError>, Thrown>

  /** The returned `Result`, whether the version was checked, and the `isFirstRun` migrations ran with (if they ran). */
  datatype InitRun = InitRun(result: Result<(), AppError>, versionChecked: bool, migratedWith: Option<bool>)

  const VersionFailedMessage: string := "Failed to get database version"
  const InitFailedMessage: string := "Failed to initialize database"

  /** Reading `initData!.isFirstRun` when the check resolved to `ok(null)`. */
  const NullInitData: Thrown := Plain("TypeError: Cannot read properties of null (reading 'isFirstRun')")

  /** The `catch` block: any exception becomes a `DbConnectionError` around it. */
  function Crashed(cause: Thrown, versionChecked: bool, migratedWith: Option<bool>): InitRun
  {
    InitRun(Fail(NewDbConnectionError(Some(InitFailedMessage), Some(cause))), versionChecked, migratedWith)
  }

  /** `getError()` passed as `originalError`: an absent error stays absent. */
  function AsCause(error: Option<AppError>): Option<Thrown>
  {
    if error.Some? then Some(App(error.value)) else None
  }

  /** The check resolved to a success carrying data. */
  predicate CheckPassed(check: Call<InitInfo>)
  {
    check.Normal? && check.value.isSuccess && check.value.value.Some?
  }

  /** The version call resolved to a success; `getValue() || 0` reads null as 0. */
  predicate VersionPassed(version: Call<int>)
  {
    version.Normal? && version.value.isSuccess
  }

  function VersionRead(version: Call<int>): int
    requires VersionPassed(version)
  {
    if version.value.value.Some? then version.value.value.value else 0
  }

  /** `initializeAndMigrateDatabase(db)`. */
  function InitializeAndMigrateDatabase(check: Call<InitInfo>, version: Call<int>, migrate: bool -> Call<()>): (r: InitRun)
    ensures r.migratedWith.Some? ==> r.versionChecked && CheckPassed(check) && VersionPassed(version)
    ensures r.versionChecked <==> CheckPassed(check)
    ensures check.Normal? && !check.value.isSuccess ==> r == InitRun(PropagateFailure(check.value), false, None)
    ensures check.Throw? ==> r == Crashed(check.exception, false, None)
    ensures check.Normal? && check.value.isSuccess && check.value.value.None? ==> r == Crashed(NullInitData, false, None)
    ensures CheckPassed(check) && version.Throw? ==> r == Crashed(version.exception, true, None)
    ensures CheckPassed(check) && !VersionPassed(version) ==> r.migratedWith.None? && !r.result.isSuccess
    ensures CheckPassed(check) && version.Normal? && !version.value.isSuccess ==>
      r.result == Fail(DbConnectionError(VersionFailedMessage, AsCause(version.value.error)))
    ensures CheckPassed(check) && VersionPassed(version) ==>
      var isFirstRun := check.value.value.value.isFirstRun;
      && (r.migratedWith.Some? <==> isFirstRun || VersionRead(version) < DbVersion)
      && (r.migratedWith.Some? ==> r.migratedWith.value == isFirstRun)
      && (r.migratedWith.None? ==> r.result == Ok(None))
      && (r.migratedWith.Some? && migrate(isFirstRun).Throw? ==>
            r == Crashed(migrate(isFirstRun).exception, true, Some(isFirstRun)))
      && (r.migratedWith.Some? && migrate(isFirstRun).Normal? && !migrate(isFirstRun).value.isSuccess ==>
            r.result == migrate(isFirstRun).value)
      && (r.migratedWith.Some? && migrate(isFirstRun).Normal? && migrate(isFirstRun).value.isSuccess ==>
            r.result == Ok(None))
  {
    match check
    case Throw(x) => Crashed(x, false, None)
    case Normal(init) =>
      if !init.isSuccess then InitRun(PropagateFailure(init), false, None)
      else if init.value.None? then Crashed(NullInitData, false, None)
      else
        var isFirstRun := init.value.value.isFirstRun;
        match version
        case Throw(x) => Crashed(x, true, None)
        case Normal(v) =>
          if !v.isSuccess then
            InitRun(Fail(NewDbConnectionError(Some(VersionFailedMessage), AsCause(v.error))), true, None)
          else
            var currentVersion := if v.value.Some? then v.value.value else 0;
            if isFirstRun || currentVersion < DbVersion then
              match migrate(isFirstRun)
              case Throw(x) => Crashed(x, true, Some(isFirstRun))
              case Normal(m) =>
                if !m.isSuccess then InitRun(m, true, Some(isFirstRun))
                else InitRun(Ok(None), true, Some(isFirstRun))
            else
              InitRun(Ok(None), true, None)
  }

  /** A Result-returning `checkDatabaseInitialized` over the concrete store: it never fails. */
  function CheckDatabaseInitialized(st: Store): (c: Call<InitInfo>)
    ensures CheckPassed(c) && c.value.value.value == InitializeDatabase(st)
  {
    Normal(Ok(Some(InitializeDatabase(st))))
  }

  /** A Result-returning `getDatabaseVersion` over the concrete store: it never fails. */
  function GetDatabaseVersionResult(st: Store): (c: Call<int>)
    ensures VersionPassed(c) && VersionRead(c) == GetDatabaseVersion(st)
  {
    Normal(Ok(Some(GetDatabaseVersion(st))))
  }

  /** A Result-returning `executeMigrations`: a throw becomes a `DbMigrationError` for `DB_VERSION`. */
  function MigrationResult(run: MigrationRun): (c: Call<()>)
    ensures c.Normal? && WellFormed(c.value)
    ensures c.value.isSuccess <==> run.exec.outcome.Normal?
    ensures !c.value.isSuccess ==> Kind(c.value.error.value) == DbMigration && c.value.error.value.version == Some(DbVersion)
  {
    match run.exec.outcome
    case Normal(_) => Normal(Ok(None))
    case Throw(x) => Normal(Fail(NewDbMigrationError(None, Some(DbVersion), Some(x))))
  }

  /** The orchestrator over the concrete store, with the store it leaves. */
  function Initialize(st: Store, legacy: Outcome<Option<seq<Ingredient>>, Thrown>, migrateNow: int, stampNow: int): (Store, InitRun)
  {
    var migrate := (flag: bool) => MigrationResult(ExecuteMigrations(st, flag, legacy, migrateNow, stampNow));
    var run := InitializeAndMigrateDatabase(CheckDatabaseInitialized(st), GetDatabaseVersionResult(st), migrate);
    var after := if run.migratedWith.Some? then ExecuteMigrations(st, run.migratedWith.value, legacy, migrateNow, stampNow).exec.store else st;
    (after, run)
  }

  /**
   * Starting up twice: once a start-up has succeeded, a second one on the store it
   * left finds the table and a current version, so it succeeds without migrating.
   */
  lemma SecondStartDoesNotMigrate(st: Store, legacy: Outcome<Option<seq<Ingredient>>, Thrown>, migrateNow: int, stampNow: int,
                                  legacy2: Outcome<Option<seq<Ingredient>>, Thrown>, migrateNow2: int, stampNow2: int)
    requires VersionReadable(st)
    requires Initialize(st, legacy, migrateNow, stampNow).1.result.isSuccess
    ensures var second := Initialize(Initialize(st, legacy, migrateNow, stampNow).0, legacy2, migrateNow2, stampNow2);
            second.1.migratedWith.None? && second.1.result.isSuccess
  {
    var (after, first) := Initialize(st, legacy, migrateNow, stampNow);
    if first.migratedWith.Some? {
      var r := ExecuteMigrations(st, first.migratedWith.value, legacy, migrateNow, stampNow);
      assert r.exec.outcome.Normal?;
      assert after.failing == st.failing;
      assert !InitializeDatabase(after).isFirstRun;
      assert GetDatabaseVersion(after) >= DbVersion;
    }
  }

  /** On a fresh file with no legacy data and a working engine, start-up migrates as a first run and succeeds. */
  lemma FreshStoreMigrates(migrateNow: int, stampNow: int)
    ensures var (after, run) := Initialize(Fresh({}), Normal(None), migrateNow, stampNow);
            && run.result.isSuccess && run.migratedWith == Some(true)
            && after.ingredients == Some(map[]) && after.versions == Some([VersionRow(DbVersion, stampNow)])
  {
    var created := CreateTables(Fresh({}));
    assert created.store.versions == Some([]);
    var r := ExecuteMigrations(Fresh({}), true, Normal(None), migrateNow, stampNow);
    assert r.exec.store.versions == Some([] + [VersionRow(DbVersion, stampNow)]);
    assert [] + [VersionRow(DbVersion, stampNow)] == [VersionRow(DbVersion, stampNow)];
  }

  /**
   * A first start whose legacy batch fails leaves `database_version` created but empty,
   * so the next start is not a first run: it migrates with `isFirstRun = false` and the
   * legacy list is never read again.
   */
  lemma FailedLegacyMigrationIsNotRetried(st: Store, legacy: Outcome<Option<seq<Ingredient>>, Thrown>, migrateNow: int, stampNow: int,
                                          legacy2: Outcome<Option<seq<Ingredient>>, Thrown>, migrateNow2: int, stampNow2: int)
    requires st.versions.None? && CatalogQuery !in st.failing
    requires CreateTables(st).outcome.Normal?
    requires MigrateFromAsyncStorage(CreateTables(st).store, legacy, migrateNow).outcome.Throw?
    ensures var (after, first) := Initialize(st, legacy, migrateNow, stampNow);
            && first.migratedWith == Some(true) && !first.result.isSuccess
            && after.versions == Some([])
            && Initialize(after, legacy2, migrateNow2, stampNow2).1.migratedWith == Some(false)
            && LegacyStep !in ExecuteMigrations(after, false, legacy2, migrateNow2, stampNow2).steps
  {
    LegacyFailureKeepsTables(st, legacy, migrateNow, stampNow);
    var after := CreateTables(st).store;
    assert !InitializeDatabase(after).isFirstRun;
    assert GetDatabaseVersion(after) == 0;
  }

  /**
   * `getDatabaseVersion` reads 0 when `SELECT version` fails, so on such a store every
   * start-up migrates: after a successful first start, the next one finds the tables,
   * runs the migrations as a later run, and its stamp of `DB_VERSION` collides with the
   * row the first start wrote, so start-up fails with a `DbMigrationError`.
   */
  lemma UnreadableVersionFailsLaterStarts(st: Store, legacy: Outcome<Option<seq<Ingredient>>, Thrown>, migrateNow: int, stampNow: int,
                                          legacy2: Outcome<Option<seq<Ingredient>>, Thrown>, migrateNow2: int, stampNow2: int)
    requires SelectMaxVersion in st.failing
    requires Initialize(st, legacy, migrateNow, stampNow).1.result.isSuccess
    ensures var second := Initialize(Initialize(st, legacy, migrateNow, stampNow).0, legacy2, migrateNow2, stampNow2).1;
            && second.migratedWith == Some(false)
            && !second.result.isSuccess
            && second.result.error.Some? && Kind(second.result.error.value) == DbMigration
  {
    var (after, first) := Initialize(st, legacy, migrateNow, stampNow);
    assert first.migratedWith.Some?;
    var r := ExecuteMigrations(st, first.migratedWith.value, legacy, migrateNow, stampNow);
    assert r.exec.outcome.Normal?;
    assert HasVersion(after.versions.value, DbVersion);
    assert !InitializeDatabase(after).isFirstRun;
    assert GetDatabaseVersion(after) == 0;
    var again := ExecuteMigrations(after, false, legacy2, migrateNow2, stampNow2);
    assert again.exec.outcome.Throw?;
  }

  /** The hypothesis of the lemma above is met: a fresh file whose `SELECT version` fails starts up once. */
  lemma UnreadableVersionFirstStartSucceeds(migrateNow: int, stampNow: int)
    ensures Initialize(Fresh({SelectMaxVersion}), Normal(None), migrateNow, stampNow).1.result.isSuccess
  {
    var r := ExecuteMigrations(Fresh({SelectMaxVersion}), true, Normal(None), migrateNow, stampNow);
    assert CreateTables(Fresh({SelectMaxVersion})).store.versions == Some([]);
    assert r.exec.outcome.Normal?;
  }
}

=== FILE: database.dfy ===
/**
 * database/database.ts: the schema version store, as the file is written.
 *
 * `initializeDatabase` answers "is this the first run" with a plain value and
 * never fails; `getDatabaseVersion` answers with a plain number and reads 0 for
 * every failure; `updateDatabaseVersion` returns nothing and rethrows. The
 * connection is the abstract `Store`; `Date.now()` is the parameter `now`.
 */
module Database {
  import opened Results
  import opened Errors
  import opened Sqlite

  /** The schema version this build expects; bumped whenever the schema changes. */
  const DbVersion: int := 1

  /** The database file name; opening the file is not modelled. */
  const DbName: string := "sholist.db"

  /** `{ isFirstRun }`. */
  datatype InitInfo = InitInfo(isFirstRun: bool)

  /** Both catalog and `SELECT version` queries go through. */
  predicate VersionReadable(st: Store)
  {
    CatalogQuery !in st.failing && SelectMaxVersion !in st.failing
  }

  /**
   * `initializeDatabase(db)`: first run exactly when `database_version` is missing;
   * a catalog query that throws is taken as a first run as well.
   */
  function InitializeDatabase(st: Store): (info: InitInfo)
    ensures CatalogQuery !in st.failing ==> (info.isFirstRun <==> st.versions.None?)
    ensures CatalogQuery in st.failing ==> info.isFirstRun
  {
    match VersionTableListed(st)
    case Normal(listed) => InitInfo(!listed)
    case Throw(_) => InitInfo(true)
  }

  /**
   * `getDatabaseVersion(db)`: the largest stored version, or 0 when the table is
   * missing or empty; any error is swallowed and also reads as 0.
   */
  function GetDatabaseVersion(st: Store): (v: int)
    ensures st.versions.None? ==> v == 0
    ensures v == 0 || (st.versions.Some? && HasVersion(st.versions.value, v))
    ensures CatalogQuery in st.failing ==> v == 0
    ensures st.versions.Some? && SelectMaxVersion in st.failing ==> v == 0
    ensures st.versions.Some? && VersionReadable(st) && |st.versions.value| == 0 ==> v == 0
    ensures st.versions.Some? && VersionReadable(st) && |st.versions.value| > 0 ==>
      HasVersion(st.versions.value, v) && forall i :: 0 <= i < |st.versions.value| ==> st.versions.value[i].version <= v
  {
    match VersionTableListed(st)
    case Throw(_) => 0
    case Normal(listed) =>
      if !listed then 0
      else match SelectLatestVersion(st)
        case Throw(_) => 0
        case Normal(latest) => if latest.Some? then latest.value else 0
  }

  /**
   * `updateDatabaseVersion(version, db)`: creates `database_version` when the catalog
   * does not list it, then appends `(version, now)`; any error is rethrown. The two
   * statements are not in a transaction, so a table created before a failed insert stays.
   */
  function UpdateDatabaseVersion(version: int, st: Store, now: int): (x: Exec<()>)
    ensures x.store.ingredients == st.ingredients && x.store.failing == st.failing
    ensures x.outcome.Normal? <==>
      && CatalogQuery !in st.failing
      && (st.versions.None? ==> CreateVersionTable !in st.failing)
      && InsertVersion !in st.failing
      && (st.versions.Some? ==> !HasVersion(st.versions.value, version))
    ensures x.outcome.Normal? ==>
      x.store.versions == Some((if st.versions.Some? then st.versions.value else []) + [VersionRow(version, now)])
    ensures x.outcome.Throw? ==>
      x.store == (if st.versions.None? && CatalogQuery !in st.failing && CreateVersionTable !in st.failing
                  then st.(versions := Some([])) else st)
  {
    match VersionTableListed(st)
    case Throw(x) => Exec(st, Throw(x))
    case Normal(listed) =>
      var created := if listed then Exec(st, Normal(())) else CreateVersions(st);
      if created.outcome.Throw? then created
      else InsertVersionRow(created.store, version, now)
  }

  /** Stamping never rewrites history: the rows before are a prefix of the rows after, and the key stays unique. */
  lemma StampIsAppendOnly(version: int, st: Store, now: int)
    requires st.versions.Some? && DistinctVersions(st.versions.value)
    ensures var after := UpdateDatabaseVersion(version, st, now).store.versions;
            after.Some? && st.versions.value <= after.value && DistinctVersions(after.value)
  {
    var x := UpdateDatabaseVersion(version, st, now);
    if x.outcome.Normal? {
      InsertVersionKeepsDistinct(st, version, now);
    }
  }

  /** After a successful stamp of `version`, the version read back is at least `version` and it is no longer a first run. */
  lemma StampThenRead(version: int, st: Store, now: int)
    requires UpdateDatabaseVersion(version, st, now).outcome.Normal?
    requires VersionReadable(st)
    ensures GetDatabaseVersion(UpdateDatabaseVersion(version, st, now).store) >= version
    ensures !InitializeDatabase(UpdateDatabaseVersion(version, st, now).store).isFirstRun
  {
    var after := UpdateDatabaseVersion(version, st, now).store;
    var rows := after.versions.value;
    assert rows[|rows| - 1].version == version;
  }
}

=== FILE: error_types.dfy ===
/**
 * The error taxonomy of api/common/error-types.ts.
 *
 * Every class extends `AppError`, whose constructor sets `name` to the class
 * name; each class defaults its message and carries a few optional diagnostic
 * fields. The untyped `originalError?: unknown` is a `Thrown`: either one of
 * these errors or a plain `Error` (from the storage engine, a TypeError, ...).
 */
module Errors {
  import opened Results

  /** The six classes deriving from `AppError`. */
  datatype ErrorKind = DbConnection | DbQuery | DbMigration | NotFound | Validation | NotImplemented

  datatype AppError =
    | DbConnectionError(message: string, originalError: Option<Thrown>)
    | DbQueryError(message: string, operation: Option<string>, entity: Option<string>, originalError: Option<Thrown>)
    | DbMigrationError(message: string, version: Option<int>, originalError: Option<Thrown>)
    | NotFoundError(message: string, entityType: Option<string>, entityId: Option<string>)
    | ValidationError(message: string, field: Option<string>)
    | NotImplementedError(message: string, feature: Option<string>)

  /** Any value a `throw` can carry in this code base. */
  datatype Thrown = App(error: AppError) | Plain(message: string)

  function Kind(e: AppError): ErrorKind
  {
    match e
    case DbConnectionError(_, _) => DbConnection
    case DbQueryError(_, _, _, _) => DbQuery
    case DbMigrationError(_, _, _) => DbMigration
    case NotFoundError(_, _, _) => NotFound
    case ValidationError(_, _) => Validation
    case NotImplementedError(_, _) => NotImplemented
  }

  function ClassName(k: ErrorKind): string
  {
    match k
    case DbConnection => "DbConnectionError"
    case DbQuery => "DbQueryError"
    case DbMigration => "DbMigrationError"
    case NotFound => "NotFoundError"
    case Validation => "ValidationError"
    case NotImplemented => "NotImplementedError"
  }

  /** `this.name = this.constructor.name`. */
  function Name(e: AppError): string
  {
    ClassName(Kind(e))
  }

  function DefaultMessage(k: ErrorKind): string
  {
    match k
    case DbConnection => "Failed to connect to database"
    case DbQuery => "Database query failed"
    case DbMigration => "Database migration failed"
    case NotFound => "Item not found"
    case Validation => "Validation failed"
    case NotImplemented => "This feature is not implemented yet"
  }

  /** A default parameter: only an omitted (undefined) argument takes the default. */
  function MessageOr(message: Option<string>, default: string): string
  {
    if message.Some? then message.value else default
  }

  /** `new DbConnectionError(message?, originalError?)`. */
  function NewDbConnectionError(message: Option<string>, originalError: Option<Thrown>): (e: AppError)
    ensures Name(e) == "DbConnectionError"
    ensures message.None? ==> e.message == "Failed to connect to database"
    ensures message.Some? ==> e.message == message.value
    ensures e.originalError == originalError
  {
    DbConnectionError(MessageOr(message, DefaultMessage(DbConnection)), originalError)
  }

  /** `new DbQueryError(message?, operation?, entity?, originalError?)`. */
  function NewDbQueryError(message: Option<string>, operation: Option<string>, entity: Option<string>, originalError: Option<Thrown>): (e: AppError)
    ensures Name(e) == "DbQueryError"
    ensures message.None? ==> e.message == "Database query failed"
    ensures message.Some? ==> e.message == message.value
    ensures e.operation == operation && e.entity == entity && e.originalError == originalError
  {
    DbQueryError(MessageOr(message, DefaultMessage(DbQuery)), operation, entity, originalError)
  }

  /** `new DbMigrationError(message?, version?, originalError?)`. */
  function NewDbMigrationError(message: Option<string>, version: Option<int>, originalError: Option<Thrown>): (e: AppError)
    ensures Name(e) == "DbMigrationError"
    ensures message.None? ==> e.message == "Database migration failed"
    ensures message.Some? ==> e.message == message.value
    ensures e.version == version && e.originalError == originalError
  {
    DbMigrationError(MessageOr(message, DefaultMessage(DbMigration)), version, originalError)
  }

  /** `new NotFoundError(message?, entityType?, entityId?)`. */
  function NewNotFoundError(message: Option<string>, entityType: Option<string>, entityId: Option<string>): (e: AppError)
    ensures Name(e) == "NotFoundError"
    ensures message.None? ==> e.message == "Item not found"
    ensures message.Some? ==> e.message == message.value
    ensures e.entityType == entityType && e.entityId == entityId
  {
    NotFoundError(MessageOr(message, DefaultMessage(NotFound)), entityType, entityId)
  }

  /** `new ValidationError(message?, field?)`. */
  function NewValidationError(message: Option<string>, field: Option<string>): (e: AppError)
    ensures Name(e) == "ValidationError"
    ensures message.None? ==> e.message == "Validation failed"
    ensures message.Some? ==> e.message == message.value
    ensures e.field == field
  {
    ValidationError(MessageOr(message, DefaultMessage(Validation)), field)
  }

  /** `new NotImplementedError(message?, feature?)`. */
  function NewNotImplementedError(message: Option<string>, feature: Option<string>): (e: AppError)
    ensures Name(e) == "NotImplementedError"
    ensures message.None? ==> e.message == "This feature is not implemented yet"
    ensures message.Some? ==> e.message == message.value
    ensures e.feature == feature
  {
    NotImplementedError(MessageOr(message, DefaultMessage(NotImplemented)), feature)
  }

  /** The `name` field tells the six kinds apart: two errors share a name exactly when they share a class. */
  lemma NameIdentifiesKind(a: AppError, b: AppError)
    ensures Name(a) == Name(b) <==> Kind(a) == Kind(b)
  {
  }
}

=== FILE: ingredient.dfy ===
/**
 * The one domain entity and its storage encoding.
 *
 * An ingredient as the repository, the legacy store and the service handle it:
 * `{id, name, completed, created_at?, updated_at?}`. In a row, `completed` is
 * stored as 1 or 0 and read back as `stored === 1`; a missing or falsy
 * timestamp is replaced by `now` through `||` on insert.
 */
module Ingredients {
  import opened Results
  import opened Sqlite

  datatype Ingredient = Ingredient(id: string, name: string, completed: bool, createdAt: Option<int>, updatedAt: Option<int>)

  /** `completed ? 1 : 0`. */
  function EncodeCompleted(completed: bool): (n: int)
    ensures n == 0 || n == 1
    ensures n == 1 <==> completed
  {
    if completed then 1 else 0
  }

  /** `row.completed === 1`: any stored value other than 1 reads as false. */
  function DecodeCompleted(n: int): (b: bool)
    ensures n == EncodeCompleted(true) ==> b
    ensures n == EncodeCompleted(false) ==> !b
    ensures n != 0 && n != 1 ==> !b
  {
    n == 1
  }

  /** `timestamp || now`: undefined and 0 are falsy and give way to `now`. */
  function OrNow(timestamp: Option<int>, now: int): (t: int)
    ensures timestamp.None? ==> t == now
    ensures timestamp.Some? && timestamp.value == 0 ==> t == now
    ensures timestamp.Some? && timestamp.value != 0 ==> t == timestamp.value
  {
    if timestamp.Some? && timestamp.value != 0 then timestamp.value else now
  }

  /** The row an `INSERT INTO ingredients` writes for `i`: 0/1 for `completed`, `now` for falsy timestamps. */
  function ToRow(i: Ingredient, now: int): (r: Row)
    ensures r.name == i.name
    ensures (r.completed == 0 || r.completed == 1) && (r.completed == 1 <==> i.completed)
    ensures i.createdAt.Some? && i.createdAt.value != 0 ==> r.createdAt == i.createdAt.value
    ensures i.createdAt.None? || i.createdAt.value == 0 ==> r.createdAt == now
    ensures i.updatedAt.Some? && i.updatedAt.value != 0 ==> r.updatedAt == i.updatedAt.value
    ensures i.updatedAt.None? || i.updatedAt.value == 0 ==> r.updatedAt == now
  {
    Row(i.name, EncodeCompleted(i.completed), OrNow(i.createdAt, now), OrNow(i.updatedAt, now))
  }

  /**
   * The object a `SELECT` row is mapped to; a row holding 0/1 and non-zero timestamps
   * is exactly what inserting that object writes, whatever the clock reads.
   */
  function FromRow(id: string, row: Row): (i: Ingredient)
    ensures i.id == id && i.createdAt.Some? && i.updatedAt.Some?
    ensures (row.completed == 0 || row.completed == 1) && row.createdAt != 0 && row.updatedAt != 0 ==>
      forall now :: ToRow(i, now) == row
  {
    Ingredient(id, row.name, DecodeCompleted(row.completed), Some(row.createdAt), Some(row.updatedAt))
  }

  /** `i` with both timestamps filled in the way an insert fills them. */
  function WithTimestamps(i: Ingredient, now: int): Ingredient
  {
    i.(createdAt := Some(OrNow(i.createdAt, now)), updatedAt := Some(OrNow(i.updatedAt, now)))
  }

  /** The 0/1 encoding round-trips every boolean. */
  lemma CompletedRoundTrip(b: bool)
    ensures DecodeCompleted(EncodeCompleted(b)) == b
  {
  }

  /** Decoding then re-encoding gives back the stored value exactly when it is 0 or 1. */
  lemma StoredCompletedRoundTrip(n: int)
    ensures EncodeCompleted(DecodeCompleted(n)) == n <==> n == 0 || n == 1
  {
  }

  /** Writing an ingredient and reading its row back returns it with the defaulted timestamps. */
  lemma RowRoundTrip(i: Ingredient, now: int)
    ensures FromRow(i.id, ToRow(i, now)) == WithTimestamps(i, now)
    ensures FromRow(i.id, ToRow(i, now)).completed == i.completed
  {
  }
}

=== FILE: ingredient_repository.dfy ===
/**
 * database/ingredient-repository.ts: CRUD over the `ingredients` table.
 *
 * The class does not go through the base repository: every operation logs and
 * rethrows what the engine throws, so each returns the store afterwards together
 * with an `Outcome` (returned or threw). `Date.now()` is the parameter `now`.
 */
module IngredientRepository {
  import opened Results
  import opened Errors
  import opened Sqlite
  import opened Ingredients

  type Entry = (string, Row)

  /** `ORDER BY completed ASC, created_at DESC`: `a` may come before `b`. */
  predicate RowBefore(a: Row, b: Row)
  {
    a.completed < b.completed || (a.completed == b.completed && a.createdAt >= b.createdAt)
  }

  predicate SortedRows(s: seq<Entry>)
  {
    forall i, j :: 0 <= i < j < |s| ==> RowBefore(s[i].1, s[j].1)
  }

  predicate DistinctKeys(s: seq<Entry>)
  {
    forall i, j :: 0 <= i < j < |s| ==> s[i].0 != s[j].0
  }

  /** Every stored `completed` is 0 or 1, as all writers of this table store it. */
  predicate CompletedIsBit(table: Table)
  {
    forall id :: id in table ==> table[id].completed == 0 || table[id].completed == 1
  }

  /**
   * `items` is an answer to the `getAll` query over `table`: each row exactly once,
   * decoded, in `ORDER BY` order (rows equal on both sort keys may come in any order).
   */
  predicate IsListing(table: Table, items: seq<Ingredient>)
  {
    && |items| == |table|
    && (forall i :: 0 <= i < |items| ==> items[i].id in table && items[i] == FromRow(items[i].id, table[items[i].id]))
    && (forall i, j :: 0 <= i < j < |items| ==> items[i].id != items[j].id)
    && (forall id :: id in table ==> exists i :: 0 <= i < |items| && items[i].id == id)
    && (forall i, j :: 0 <= i < j < |items| ==> RowBefore(table[items[i].id], table[items[j].id]))
  }

  /** The first position in sorted `s` at which `x` can be inserted keeping the order. */
  method InsertionPoint(s: seq<Entry>, x: Row) returns (k: nat)
    requires SortedRows(s)
    ensures k <= |s|
    ensures forall i :: 0 <= i < k ==> RowBefore(s[i].1, x)
    ensures forall i :: k <= i < |s| ==> RowBefore(x, s[i].1)
  {
    k := 0;
    while k < |s| && !RowBefore(x, s[k].1)
      invariant k <= |s|
      invariant forall i :: 0 <= i < k ==> RowBefore(s[i].1, x)
    {
      k := k + 1;
    }
  }

  /** Inserts `e` into sorted `s` at its `ORDER BY` position. */
  method InsertSorted(s: seq<Entry>, e: Entry) returns (t: seq<Entry>)
    requires SortedRows(s) && DistinctKeys(s)
    requires forall x :: x in s ==> x.0 != e.0
    ensures |t| == |s| + 1
    ensures SortedRows(t) && DistinctKeys(t)
    ensures forall x :: x in t <==> x == e || x in s
  {
    var k := InsertionPoint(s, e.1);
    t := s[..k] + [e] + s[k..];
    assert forall i :: 0 <= i < k ==> t[i] == s[i];
    assert t[k] == e;
    assert forall i :: k < i < |t| ==> t[i] == s[i - 1];
    assert forall x :: x in s ==> x in t by {
      forall x | x in s
        ensures x in t
      {
        var i :| 0 <= i < |s| && s[i] == x;
        if i < k { assert t[i] == x; } else { assert t[i + 1] == x; }
      }
    }
  }

  /** Orders the rows of `table` as the `getAll` query does. */
  method SortRows(table: Table) returns (entries: seq<Entry>)
    ensures |entries| == |table|
    ensures forall x :: x in entries ==> x.0 in table && x.1 == table[x.0]
    ensures forall id :: id in table ==> (id, table[id]) in entries
    ensures DistinctKeys(entries)
    ensures SortedRows(entries)
  {
    entries := [];
    var pending := table.Keys;
    while pending != {}
      invariant pending <= table.Keys
      invariant |entries| + |pending| == |table.Keys|
      invariant forall x :: x in entries ==> x.0 in table && x.0 !in pending && x.1 == table[x.0]
      invariant forall id :: id in table && id !in pending ==> (id, table[id]) in entries
      invariant DistinctKeys(entries)
      invariant SortedRows(entries)
      decreases pending
    {
      var id :| id in pending;
      entries := InsertSorted(entries, (id, table[id]));
      pending := pending - {id};
    }
  }

  /** `result.map(row => ({...}))`: each row decoded in place. */
  function DecodeEntries(entries: seq<Entry>): (items: seq<Ingredient>)
    ensures |items| == |entries|
    ensures forall i :: 0 <= i < |entries| ==> items[i] == FromRow(entries[i].0, entries[i].1)
  {
    seq(|entries|, i requires 0 <= i < |entries| => FromRow(entries[i].0, entries[i].1))
  }

  /** Sorted, distinct entries covering exactly the rows of `table` decode to a listing of it. */
  lemma DecodedEntriesAreListing(table: Table, entries: seq<Entry>)
    requires |entries| == |table|
    requires forall x :: x in entries ==> x.0 in table && x.1 == table[x.0]
    requires forall id :: id in table ==> (id, table[id]) in entries
    requires DistinctKeys(entries) && SortedRows(entries)
    ensures IsListing(table, DecodeEntries(entries))
  {
    var items := DecodeEntries(entries);
    assert forall i :: 0 <= i < |items| ==> items[i].id == entries[i].0 && entries[i] in entries;
    forall id | id in table
      ensures exists i :: 0 <= i < |items| && items[i].id == id
    {
      var i :| 0 <= i < |entries| && entries[i] == (id, table[id]);
      assert items[i].id == id;
    }
  }

  /** `getAll()`: every row, incomplete first and newest first within each group; engine errors are rethrown. */
  method GetAll(st: Store) returns (r: Outcome<seq<Ingredient>, Thrown>)
    ensures r.Normal? <==> st.ingredients.Some? && SelectIngredients !in st.failing
    ensures r.Normal? ==> IsListing(st.ingredients.value, r.value)
  {
    var rows := SelectAll(st);
    if rows.Throw? {
      return Throw(rows.exception);
    }
    var entries := SortRows(rows.value);
    DecodedEntriesAreListing(rows.value, entries);
    r := Normal(DecodeEntries(entries));
  }

  /** With 0/1 stored flags, a listing puts every incomplete item first and is newest-first within each group. */
  lemma ListingOrder(table: Table, items: seq<Ingredient>, i: int, j: int)
    requires CompletedIsBit(table) && IsListing(table, items)
    requires 0 <= i < j < |items|
    ensures items[i].completed ==> items[j].completed
    ensures items[i].completed == items[j].completed ==> items[i].createdAt.value >= items[j].createdAt.value
  {
    assert RowBefore(table[items[i].id], table[items[j].id]);
  }

  /** An empty table lists as `[]`. */
  lemma EmptyListing(items: seq<Ingredient>)
    requires IsListing(map[], items)
    ensures items == []
  {
  }

  /** `getById(id)`: the decoded row, or null when no row has that id. */
  function GetById(st: Store, id: string): (r: Outcome<Option<Ingredient>, Thrown>)
    ensures r.Normal? <==> st.ingredients.Some? && SelectIngredients !in st.failing
    ensures r.Normal? ==> (r.value.Some? <==> id in st.ingredients.value)
    ensures r.Normal? && r.value.Some? ==> r.value.value == FromRow(id, st.ingredients.value[id])
  {
    match SelectAll(st)
    case Throw(x) => Throw(x)
    case Normal(table) => Normal(if id in table then Some(FromRow(id, table[id])) else None)
  }

  /** `add(ingredient)`: one new row with `created_at || now` and `updated_at || now`; a taken id throws. */
  function Add(st: Store, ingredient: Ingredient, now: int): (x: Exec<()>)
    ensures x.outcome.Normal? <==> st.ingredients.Some? && InsertIngredient !in st.failing && ingredient.id !in st.ingredients.value
    ensures x.outcome.Normal? ==> x.store.ingredients == Some(st.ingredients.value[ingredient.id := ToRow(ingredient, now)])
    ensures x.store.versions == st.versions
    ensures x.outcome.Throw? ==> x.store == st
  {
    InsertRow(st, ingredient.id, ToRow(ingredient, now))
  }

  /** `update(ingredient)`: name, completed and `updated_at = now` on the matching row; `created_at` and other rows stay. */
  function Update(st: Store, ingredient: Ingredient, now: int): (x: Exec<()>)
    ensures x.outcome.Normal? <==> st.ingredients.Some? && UpdateIngredient !in st.failing
    ensures x.outcome.Normal? ==> x.store.ingredients == Some(
      var t := st.ingredients.value;
      if ingredient.id in t then t[ingredient.id := Row(ingredient.name, EncodeCompleted(ingredient.completed), t[ingredient.id].createdAt, now)]
      else t)
    ensures x.store.versions == st.versions
    ensures x.outcome.Throw? ==> x.store == st
  {
    UpdateRow(st, ingredient.id, (r: Row) => r.(name := ingredient.name, completed := EncodeCompleted(ingredient.completed), updatedAt := now))
  }

  /** `updateCompletion(id, completed)`: only `completed` and `updated_at` of the matching row change. */
  function UpdateCompletion(st: Store, id: string, completed: bool, now: int): (x: Exec<()>)
    ensures x.outcome.Normal? <==> st.ingredients.Some? && UpdateIngredient !in st.failing
    ensures x.outcome.Normal? ==> x.store.ingredients == Some(
      var t := st.ingredients.value;
      if id in t then t[id := Row(t[id].name, EncodeCompleted(completed), t[id].createdAt, now)] else t)
    ensures x.store.versions == st.versions
    ensures x.outcome.Throw? ==> x.store == st
  {
    UpdateRow(st, id, (r: Row) => r.(completed := EncodeCompleted(completed), updatedAt := now))
  }

  /** `remove(id)`: deletes the matching row; an absent id is a successful no-op. */
  function Remove(st: Store, id: string): (x: Exec<()>)
    ensures x.outcome.Normal? <==> st.ingredients.Some? && DeleteIngredient !in st.failing
    ensures x.outcome.Normal? ==> x.store.ingredients == Some(st.ingredients.value - {id})
    ensures x.outcome.Normal? && id !in st.ingredients.value ==> x.store == st
    ensures x.outcome.Throw? ==> x.store == st
  {
    assert st.ingredients.Some? && id !in st.ingredients.value ==> st.ingredients.value - {id} == st.ingredients.value;
    DeleteRow(st, id)
  }

  /** `reorderIngredients(orderedIds)` only logs: it completes and leaves the store alone. */
  function ReorderIngredients(st: Store, orderedIds: seq<string>): (x: Exec<()>)
    ensures x.store == st && x.outcome.Normal?
  {
    Exec(st, Normal(()))
  }

  /** Reading back an added ingredient gives it with its defaulted timestamps and its `completed` flag. */
  lemma AddThenGetById(st: Store, ingredient: Ingredient, now: int)
    requires Add(st, ingredient, now).outcome.Normal?
    requires SelectIngredients !in st.failing
    ensures GetById(Add(st, ingredient, now).store, ingredient.id) == Normal(Some(WithTimestamps(ingredient, now)))
  {
    RowRoundTrip(ingredient, now);
  }

  /** After `remove(id)`, `getById(id)` finds nothing. */
  lemma RemoveThenGetById(st: Store, id: string)
    requires Remove(st, id).outcome.Normal?
    requires SelectIngredients !in st.failing
    ensures GetById(Remove(st, id).store, id) == Normal(None)
  {
  }

  /** The writers keep every stored `completed` at 0 or 1. */
  lemma WritersKeepCompletedBit(st: Store, ingredient: Ingredient, id: string, completed: bool, now: int)
    requires st.ingredients.Some? && CompletedIsBit(st.ingredients.value)
    ensures var s := Add(st, ingredient, now).store; CompletedIsBit(s.ingredients.value)
    ensures var s := Update(st, ingredient, now).store; CompletedIsBit(s.ingredients.value)
    ensures var s := UpdateCompletion(st, id, completed, now).store; CompletedIsBit(s.ingredients.value)
    ensures var s := Remove(st, id).store; CompletedIsBit(s.ingredients.value)
  {
  }
}

=== FILE: ingredient_service.dfy ===
/**
 * api/ingredient-service.tsx: the service the screens call.
 *
 * It keeps a cache of ingredients and an `initialLoad` flag, validates names, and
 * forwards writes to a repository. The repository is abstract: a state `R` with the
 * three calls the service makes (`getAll`, `add`, `update`), each of which returns
 * or throws. `Date.now()` and `uuidv4()` are the parameters `now` and `freshId`.
 */
module IngredientService {
  import opened Results
  import opened Errors
  import opened Sqlite
  import opened Ingredients
  import IngredientRepository

  /** The service object's two fields. */
  datatype Service = Service(ingredients: seq<Ingredient>, initialLoad: bool)

  /** `new IngredientService()`. */
  const Initial: Service := Service([], true)

  /** A repository write: the repository state afterwards and whether the call returned or threw. */
  datatype Write<R> = Write(repo: R, outcome: Outcome<(), Thrown>)

  /** `{ isSuccessful, error }`. */
  datatype Response = Response(isSuccessful: bool, error: string)

  const EmptyNameMessage: string := "Ingredient name can't be empty"
  const AddFailedMessage: string := "Failed to add ingredient"

  /** White space and line terminators, the characters `String.prototype.trim` removes. */
  predicate IsWhitespace(c: char)
  {
    || ('\U{9}' <= c <= '\U{D}') || c == ' ' || c == '\U{A0}' || c == '\U{1680}'
    || ('\U{2000}' <= c <= '\U{200A}') || c == '\U{2028}' || c == '\U{2029}'
    || c == '\U{202F}' || c == '\U{205F}' || c == '\U{3000}' || c == '\U{FEFF}'
  }

  /** Every character of `s` is white space. */
  predicate Blank(s: string)
  {
    forall i :: 0 <= i < |s| ==> IsWhitespace(s[i])
  }

  /** Leading white space removed: the dropped prefix is blank and the rest starts with a non-blank. */
  function TrimStart(s: string): (r: string)
    ensures |r| <= |s| && r == s[|s| - |r|..]
    ensures Blank(s[..|s| - |r|])
    ensures |r| > 0 ==> !IsWhitespace(r[0])
    decreases |s|
  {
    if |s| > 0 && IsWhitespace(s[0]) then
      var r := TrimStart(s[1..]);
      assert s[1..][..|s| - 1 - |r|] == s[1..|s| - |r|];
      r
    else s
  }

  /** Trailing white space removed: the dropped suffix is blank and the rest ends with a non-blank. */
  function TrimEnd(s: string): (r: string)
    ensures r <= s
    ensures Blank(s[|r|..])
    ensures |r| > 0 ==> !IsWhitespace(r[|r| - 1])
    decreases |s|
  {
    if |s| > 0 && IsWhitespace(s[|s| - 1]) then
      var r := TrimEnd(s[..|s| - 1]);
      assert s[..|s| - 1][|r|..] == s[|r|..|s| - 1];
      r
    else s
  }

  /** `s.trim()`: the input with its blank ends cut off, so the result is a slice of it. */
  function Trim(s: string): (r: string)
    ensures exists i, j :: 0 <= i <= j <= |s| && r == s[i..j] && Blank(s[..i]) && Blank(s[j..])
    ensures |r| > 0 ==> !IsWhitespace(r[0]) && !IsWhitespace(r[|r| - 1])
  {
    var front := TrimStart(s);
    var r := TrimEnd(front);
    var i := |s| - |front|;
    assert front[..|r|] == s[i..i + |r|];
    assert front[|r|..] == s[i + |r|..];
    r
  }

  lemma {:induction false} TrimStartEmptyIffBlank(s: string)
    ensures TrimStart(s) == [] <==> Blank(s)
    decreases |s|
  {
    if |s| > 0 && IsWhitespace(s[0]) {
      TrimStartEmptyIffBlank(s[1..]);
      assert forall i :: 1 <= i < |s| ==> s[i] == s[1..][i - 1];
    }
  }

  lemma {:induction false} TrimEndKeepsNonBlankHead(s: string)
    requires |s| > 0 && !IsWhitespace(s[0])
    ensures |TrimEnd(s)| > 0
    decreases |s|
  {
    if IsWhitespace(s[|s| - 1]) {
      TrimEndKeepsNonBlankHead(s[..|s| - 1]);
    }
  }

  /** `!name.trim()` holds exactly for the names made of white space only, the empty name included. */
  lemma TrimEmptyIffBlank(s: string)
    ensures Trim(s) == [] <==> Blank(s)
  {
    TrimStartEmptyIffBlank(s);
    if TrimStart(s) != [] {
      TrimEndKeepsNonBlankHead(TrimStart(s));
    }
  }

  /** The result of `GetIngredients`: the service afterwards, the list returned, and whether the repository was asked. */
  datatype Fetched = Fetched(service: Service, items: seq<Ingredient>, queried: bool)

  /** `GetIngredients()`: the repository is asked on the first call only; a failed first load returns `[]`. */
  function GetIngredients<R>(svc: Service, repo: R, getAll: R -> Outcome<seq<Ingredient>, Thrown>): (f: Fetched)
    ensures f.queried <==> svc.initialLoad
    ensures !f.service.initialLoad
    ensures !svc.initialLoad ==> f.service == svc && f.items == svc.ingredients
    ensures svc.initialLoad && getAll(repo).Normal? ==> f.items == getAll(repo).value && f.service.ingredients == f.items
    ensures svc.initialLoad && getAll(repo).Throw? ==> f.items == [] && f.service.ingredients == svc.ingredients
  {
    if !svc.initialLoad then Fetched(svc, svc.ingredients, false)
    else
      var svc' := svc.(initialLoad := false);
      match getAll(repo)
      case Normal(items) => Fetched(svc'.(ingredients := items), items, true)
      case Throw(_) => Fetched(svc', [], true)
  }

  /** A second `GetIngredients` never asks the repository and returns the cache the first one left. */
  lemma LoadsOnce<R>(svc: Service, repo: R, getAll: R -> Outcome<seq<Ingredient>, Thrown>, later: R)
    ensures var first := GetIngredients(svc, repo, getAll);
            var second := GetIngredients(first.service, later, getAll);
            !second.queried && second.items == first.service.ingredients && second.service == first.service
  {
  }

  /** After a failed first load of a new service every later call returns `[]`, the old cache. */
  lemma FailedFirstLoadSticks<R>(repo: R, getAll: R -> Outcome<seq<Ingredient>, Thrown>, later: R)
    requires getAll(repo).Throw?
    ensures var first := GetIngredients(Initial, repo, getAll);
            first.items == [] && GetIngredients(first.service, later, getAll).items == []
  {
  }

  /** A new service holds nothing yet, so its first `GetIngredients` asks the repository and caches the answer. */
  lemma NewServiceLoads<R>(repo: R, getAll: R -> Outcome<seq<Ingredient>, Thrown>)
    ensures Initial.ingredients == []
    ensures GetIngredients(Initial, repo, getAll).queried
    ensures getAll(repo).Normal? ==> GetIngredients(Initial, repo, getAll).service == Service(getAll(repo).value, false)
  {
  }

  /** The result of `AddIngredients`: the service and repository afterwards, the response, and the item passed to `add` if it was called. */
  datatype Added<R> = Added(service: Service, repo: R, response: Response, call: Option<Ingredient>)

  /**
   * `AddIngredients(name)`: a blank name is refused without touching the repository;
   * otherwise one `add` of a fresh incomplete item, prepended to the cache on success.
   */
  function AddIngredients<R>(svc: Service, repo: R, name: string, now: int, freshId: string, add: (R, Ingredient) -> Write<R>): (a: Added<R>)
    ensures Blank(name) ==> a == Added(svc, repo, Response(false, "Ingredient name can't be empty"), None)
    ensures !Blank(name) ==> a.call == Some(Ingredient(freshId, name, false, Some(now), Some(now)))
    ensures !Blank(name) ==>
      var w := add(repo, a.call.value);
      && a.repo == w.repo
      && (w.outcome.Normal? ==> a.response == Response(true, "") && a.service == svc.(ingredients := [a.call.value] + svc.ingredients))
      && (w.outcome.Throw? ==> a.response == Response(false, "Failed to add ingredient") && a.service == svc)
  {
    TrimEmptyIffBlank(name);
    if Trim(name) == [] then Added(svc, repo, Response(false, EmptyNameMessage), None)
    else
      var item := Ingredient(freshId, name, false, Some(now), Some(now));
      var w := add(repo, item);
      if w.outcome.Normal? then Added(svc.(ingredients := [item] + svc.ingredients), w.repo, Response(true, ""), Some(item))
      else Added(svc, w.repo, Response(false, AddFailedMessage), Some(item))
  }

  /**
   * The repository states the `update` loop walks through: `t[0]` is the starting state
   * and each call runs on the state the previous call left.
   */
  function Trace<R>(repo: R, items: seq<Ingredient>, update: (R, Ingredient) -> Write<R>): (t: seq<R>)
    ensures |t| == |items| + 1 && t[0] == repo
    ensures forall i :: 0 <= i < |items| ==> t[i + 1] == update(t[i], items[i]).repo
    decreases |items|
  {
    if |items| == 0 then [repo]
    else
      var t := Trace(repo, items[..|items| - 1], update);
      assert forall i :: 0 <= i < |items| - 1 ==> items[..|items| - 1][i] == items[i];
      t + [update(t[|t| - 1], items[|items| - 1]).repo]
  }

  /** The first `n` calls of the loop, each on the state the previous one left, return. */
  predicate ReturnsBefore<R>(repo: R, items: seq<Ingredient>, update: (R, Ingredient) -> Write<R>, n: nat)
    requires n <= |items|
  {
    var t := Trace(repo, items, update);
    forall i :: 0 <= i < n ==> update(t[i], items[i]).outcome.Normal?
  }

  /** Every call of the loop returns. */
  predicate AllReturn<R>(repo: R, items: seq<Ingredient>, update: (R, Ingredient) -> Write<R>)
  {
    ReturnsBefore(repo, items, update, |items|)
  }

  /** Call `k` is the first call of the loop that throws. */
  predicate FirstThrowAt<R>(repo: R, items: seq<Ingredient>, update: (R, Ingredient) -> Write<R>, k: nat)
  {
    && k < |items|
    && ReturnsBefore(repo, items, update, k)
    && update(Trace(repo, items, update)[k], items[k]).outcome.Throw?
  }

  /** A pass of the `update` loop: the repository afterwards, the items passed, and whether every call returned. */
  datatype Pass<R> = Pass(repo: R, calls: seq<Ingredient>, allReturned: bool)

  lemma {:induction false} TracePrefix<R>(repo: R, items: seq<Ingredient>, update: (R, Ingredient) -> Write<R>)
    requires |items| > 0
    ensures Trace(repo, items[..|items| - 1], update) == Trace(repo, items, update)[..|items|]
  {
    var t := Trace(repo, items[..|items| - 1], update);
    assert Trace(repo, items, update) == t + [update(t[|t| - 1], items[|items| - 1]).repo];
  }

  /**
   * The `for ... of` loop of `update` calls: every call runs on the state the previous
   * one left; the loop stops at the first throw, after which nothing more is called.
   */
  function UpdateEach<R>(repo: R, items: seq<Ingredient>, update: (R, Ingredient) -> Write<R>): (p: Pass<R>)
    ensures p.allReturned <==> AllReturn(repo, items, update)
    ensures p.allReturned ==> p.calls == items && p.repo == Trace(repo, items, update)[|items|]
    ensures !p.allReturned ==>
      && 0 < |p.calls| <= |items| && p.calls == items[..|p.calls|]
      && FirstThrowAt(repo, items, update, |p.calls| - 1)
      && p.repo == Trace(repo, items, update)[|p.calls|]
    decreases |items|
  {
    if |items| == 0 then Pass(repo, [], true)
    else
      var prefix := UpdateEach(repo, items[..|items| - 1], update);
      TracePrefix(repo, items, update);
      assert forall i :: 0 <= i < |items| - 1 ==> items[..|items| - 1][i] == items[i];
      if !prefix.allReturned then
        assert items[..|items| - 1][..|prefix.calls|] == items[..|prefix.calls|];
        prefix
      else
        var w := update(prefix.repo, items[|items| - 1]);
        Pass(w.repo, items, w.outcome.Normal?)
  }

  /** The result of `Update`: the service and repository afterwards and the items passed to `update`, in order. */
  datatype Updated<R> = Updated(service: Service, repo: R, calls: seq<Ingredient>)

  /**
   * `Update(items)`: one `update` per item in order, stopping at the first throw; the
   * cache becomes `items` only when every call returned. Errors are swallowed.
   */
  function Update<R>(svc: Service, repo: R, items: seq<Ingredient>, update: (R, Ingredient) -> Write<R>): (u: Updated<R>)
    ensures AllReturn(repo, items, update) ==>
      u == Updated(svc.(ingredients := items), Trace(repo, items, update)[|items|], items)
    ensures !AllReturn(repo, items, update) ==>
      && u.service == svc
      && 0 < |u.calls| <= |items| && u.calls == items[..|u.calls|]
      && FirstThrowAt(repo, items, update, |u.calls| - 1)
      && u.repo == Trace(repo, items, update)[|u.calls|]
  {
    var pass := UpdateEach(repo, items, update);
    Updated(if pass.allReturned then svc.(ingredients := items) else svc, pass.repo, pass.calls)
  }

  /**
   * A throw at item `k`, after the earlier calls returned, ends the loop there: exactly
   * the items up to `k` are passed, their writes stay, and the cache is left alone.
   */
  lemma ThrowKeepsCache<R>(svc: Service, repo: R, items: seq<Ingredient>, update: (R, Ingredient) -> Write<R>, k: nat)
    requires FirstThrowAt(repo, items, update, k)
    ensures Update(svc, repo, items, update).calls == items[..k + 1]
    ensures Update(svc, repo, items, update).service == svc
    ensures Update(svc, repo, items, update).repo == Trace(repo, items, update)[k + 1]
  {
    assert !AllReturn(repo, items, update);
  }

  /** When the calls the loop makes all return, every item is written, in order, and the cache becomes `items`. */
  lemma UpdateWithoutThrowReplacesCache<R>(svc: Service, repo: R, items: seq<Ingredient>, update: (R, Ingredient) -> Write<R>)
    requires AllReturn(repo, items, update)
    ensures Update(svc, repo, items, update).calls == items
    ensures Update(svc, repo, items, update).service == svc.(ingredients := items)
  {
  }

  /** The repository's own `add`, with its `Date.now()` reading `addNow`. */
  function StoreAdd(addNow: int): (Store, Ingredient) -> Write<Store>
  {
    (st: Store, i: Ingredient) => var x := IngredientRepository.Add(st, i, addNow); Write(x.store, x.outcome)
  }

  /** The repository's own `update`, with its `Date.now()` reading `updateNow`. */
  function StoreUpdate(updateNow: int): (Store, Ingredient) -> Write<Store>
  {
    (st: Store, i: Ingredient) => var x := IngredientRepository.Update(st, i, updateNow); Write(x.store, x.outcome)
  }

  /**
   * Over the SQLite repository, adding a non-blank name with a new id succeeds, puts the
   * item first in the cache, and stores it incomplete with both timestamps equal to `now`.
   */
  lemma AddOverStore(svc: Service, st: Store, name: string, now: int, freshId: string, addNow: int)
    requires !Blank(name)
    requires st.ingredients.Some? && InsertIngredient !in st.failing && freshId !in st.ingredients.value
    ensures var a := AddIngredients(svc, st, name, now, freshId, StoreAdd(addNow));
            && a.response == Response(true, "")
            && a.service.ingredients[0] == Ingredient(freshId, name, false, Some(now), Some(now))
            && a.repo.ingredients.value[freshId] == Row(name, 0, OrNow(Some(now), addNow), OrNow(Some(now), addNow))
            && (now != 0 ==> a.repo.ingredients.value[freshId] == Row(name, 0, now, now))
  {
  }

  /**
   * Over the SQLite repository, `Update` replaces the cache exactly when the table exists
   * and the engine accepts `UPDATE`; otherwise only the first item is attempted.
   */
  lemma UpdateOverStore(svc: Service, st: Store, items: seq<Ingredient>, updateNow: int)
    requires |items| > 0
    ensures var u := Update(svc, st, items, StoreUpdate(updateNow));
            u.service == svc.(ingredients := items) <==> (st.ingredients.Some? && UpdateIngredient !in st.failing) || svc.ingredients == items
  {
    var update := StoreUpdate(updateNow);
    if st.ingredients.Some? && UpdateIngredient !in st.failing {
      UpdateEachKeepsWritable(st, items, updateNow);
    } else {
      ThrowKeepsCache(svc, st, items, update, 0);
    }
  }

  /** With a writable table every `update` returns, since an absent id is a no-op. */
  lemma {:induction false} UpdateEachKeepsWritable(st: Store, items: seq<Ingredient>, updateNow: int)
    requires st.ingredients.Some? && UpdateIngredient !in st.failing
    ensures var pass := UpdateEach(st, items, StoreUpdate(updateNow));
            pass.allReturned && pass.repo.ingredients.Some? && pass.repo.failing == st.failing
    decreases |items|
  {
    if |items| > 0 {
      UpdateEachKeepsWritable(st, items[..|items| - 1], updateNow);
    }
  }
}

=== FILE: migrations.dfy ===
/**
 * database/migrations.ts: the three migration steps, as the file is written.
 *
 * `executeMigrations` awaits `createTables`, then (only on a first run) the move of
 * the legacy key-value list into `ingredients`, then stamps `DB_VERSION`; the first
 * step that throws ends the run and its exception propagates unchanged. The legacy
 * `getItem("ingredients")` is an input (a stored list, null, or a throw), and the two
 * `Date.now()` readings (inside the legacy transaction, inside the stamp) are inputs.
 */
module Migrations {
  import opened Results
  import opened Errors
  import opened Sqlite
  import opened Ingredients
  import opened Database

  /** The steps of one `executeMigrations` call. */
  datatype MigrationStep = CreateTablesStep | LegacyStep | StampStep

  /** A run: the store afterwards, how the call completed, and the steps it started, in order. */
  datatype MigrationRun = MigrationRun(exec: Exec<()>, steps: seq<MigrationStep>)

  /** `createTables(db)`: both `CREATE TABLE IF NOT EXISTS` statements in one transaction. */
  function CreateTables(st: Store): (x: Exec<()>)
    ensures x.outcome.Normal? <==> CreateIngredientsTable !in st.failing && CreateVersionTable !in st.failing
    ensures x.outcome.Normal? ==> x.store == st.(
      ingredients := Some(if st.ingredients.Some? then st.ingredients.value else map[]),
      versions := Some(if st.versions.Some? then st.versions.value else []))
    ensures x.outcome.Throw? ==> x.store == st
  {
    var first := CreateIngredients(st);
    var run := if first.outcome.Throw? then first else CreateVersions(first.store);
    Transaction(st, run)
  }

  /** The ids of `items`. */
  function IdsOf(items: seq<Ingredient>): set<string>
  {
    set i | 0 <= i < |items| :: items[i].id
  }

  /** Every id of the batch is new to `table` and appears once in the batch. */
  predicate FreshBatch(table: Table, items: seq<Ingredient>)
  {
    && (forall i :: 0 <= i < |items| ==> items[i].id !in table)
    && (forall i, j :: 0 <= i < j < |items| ==> items[i].id != items[j].id)
  }

  /** The `for ... of` loop of `INSERT`s inside the legacy transaction; it stops at the first throw. */
  function InsertAll(st: Store, items: seq<Ingredient>, now: int): (x: Exec<()>)
    ensures x.store.versions == st.versions && x.store.failing == st.failing
    ensures |items| == 0 ==> x == Exec(st, Normal(()))
    ensures |items| > 0 ==>
      (x.outcome.Normal? <==> st.ingredients.Some? && InsertIngredient !in st.failing && FreshBatch(st.ingredients.value, items))
    ensures x.outcome.Normal? && |items| > 0 ==>
      var t := st.ingredients.value;
      && x.store.ingredients.Some?
      && x.store.ingredients.value.Keys == t.Keys + IdsOf(items)
      && (forall id :: id in t ==> x.store.ingredients.value[id] == t[id])
      && (forall i :: 0 <= i < |items| ==> x.store.ingredients.value[items[i].id] == ToRow(items[i], now))
    decreases |items|
  {
    if |items| == 0 then Exec(st, Normal(()))
    else
      var first := InsertRow(st, items[0].id, ToRow(items[0], now));
      if first.outcome.Throw? then first
      else
        var rest := InsertAll(first.store, items[1..], now);
        assert IdsOf(items) == {items[0].id} + IdsOf(items[1..]) by {
          assert forall i :: 1 <= i < |items| ==> items[i] == items[1..][i - 1];
        }
        assert forall i :: 1 <= i < |items| ==> items[i] == items[1..][i - 1];
        rest
  }

  /**
   * `migrateFromAsyncStorage(db)`: a missing or empty legacy list is a no-op; otherwise
   * every record is inserted in one transaction with a single `now`, or none is.
   */
  function MigrateFromAsyncStorage(st: Store, legacy: Outcome<Option<seq<Ingredient>>, Thrown>, now: int): (x: Exec<()>)
    ensures x.store.versions == st.versions && x.store.failing == st.failing
    ensures x.outcome.Throw? ==> x.store == st
    ensures legacy.Throw? ==> x.outcome == Throw(legacy.exception)
    ensures legacy.Normal? && (legacy.value.None? || |legacy.value.value| == 0) ==> x == Exec(st, Normal(()))
    ensures legacy.Normal? && legacy.value.Some? && |legacy.value.value| > 0 ==>
      var items := legacy.value.value;
      && (x.outcome.Normal? <==> st.ingredients.Some? && InsertIngredient !in st.failing && FreshBatch(st.ingredients.value, items))
      && (x.outcome.Normal? ==>
            && x.store.ingredients.Some?
            && x.store.ingredients.value.Keys == st.ingredients.value.Keys + IdsOf(items)
            && (forall id :: id in st.ingredients.value ==> x.store.ingredients.value[id] == st.ingredients.value[id])
            && (forall i :: 0 <= i < |items| ==> x.store.ingredients.value[items[i].id] == ToRow(items[i], now)))
  {
    match legacy
    case Throw(e) => Exec(st, Throw(e))
    case Normal(stored) =>
      var items := if stored.Some? then stored.value else [];
      if |items| == 0 then Exec(st, Normal(()))
      else Transaction(st, InsertAll(st, items, now))
  }

  /** The records `getItem("ingredients")` yields, with a missing list read as `[]`. */
  function LegacyItems(legacy: Outcome<Option<seq<Ingredient>>, Thrown>): seq<Ingredient>
  {
    if legacy.Normal? && legacy.value.Some? then legacy.value.value else []
  }

  /** `executeMigrations(db, isFirstRun)`, recording which steps it started. */
  function ExecuteMigrations(st: Store, isFirstRun: bool, legacy: Outcome<Option<seq<Ingredient>>, Thrown>, migrateNow: int, stampNow: int): (r: MigrationRun)
    ensures |r.steps| >= 1 && r.steps[0] == CreateTablesStep
    ensures LegacyStep in r.steps ==> isFirstRun
    ensures r.exec.store.failing == st.failing
    ensures CreateTables(st).outcome.Throw? ==> r.steps == [CreateTablesStep] && r.exec == CreateTables(st)
    ensures var created := CreateTables(st);
            var moved := MigrateFromAsyncStorage(created.store, legacy, migrateNow);
            var migrated := if isFirstRun then moved.store else created.store;
            var stamped := UpdateDatabaseVersion(DbVersion, migrated, stampNow);
            && (r.exec.outcome.Normal? <==>
                  created.outcome.Normal? && (isFirstRun ==> moved.outcome.Normal?) && stamped.outcome.Normal?)
            && (created.outcome.Normal? && isFirstRun && moved.outcome.Throw? ==>
                  && r.exec.outcome == moved.outcome && r.exec.store == created.store
                  && r.steps == [CreateTablesStep, LegacyStep])
            && (created.outcome.Normal? && (isFirstRun ==> moved.outcome.Normal?) && stamped.outcome.Throw? ==>
                  && r.exec.outcome == stamped.outcome
                  && r.exec.store.ingredients == migrated.ingredients && r.exec.store.versions == migrated.versions
                  && r.steps[|r.steps| - 1] == StampStep)
    ensures CreateTables(st).outcome.Normal? &&
            (isFirstRun ==> MigrateFromAsyncStorage(CreateTables(st).store, legacy, migrateNow).outcome.Normal?) ==>
      r.steps == (if isFirstRun then [CreateTablesStep, LegacyStep, StampStep] else [CreateTablesStep, StampStep])
    ensures r.exec.outcome.Normal? ==>
      && r.exec.store.ingredients.Some? && r.exec.store.versions.Some?
      && HasVersion(r.exec.store.versions.value, DbVersion)
    ensures r.exec.outcome.Normal? ==>
      var created := CreateTables(st).store;
      var table := r.exec.store.ingredients.value;
      && r.exec.store.versions.value == created.versions.value + [VersionRow(DbVersion, stampNow)]
      && (st.versions.Some? ==> st.versions.value <= r.exec.store.versions.value)
      && table.Keys == created.ingredients.value.Keys + (if isFirstRun then IdsOf(LegacyItems(legacy)) else {})
      && (forall id :: id in created.ingredients.value ==> table[id] == created.ingredients.value[id])
      && (st.ingredients.Some? ==> forall id :: id in st.ingredients.value ==> table[id] == st.ingredients.value[id])
      && (!isFirstRun ==> r.exec.store.ingredients == created.ingredients)
      && (isFirstRun ==> forall i :: 0 <= i < |LegacyItems(legacy)| ==>
            table[LegacyItems(legacy)[i].id] == ToRow(LegacyItems(legacy)[i], migrateNow))
  {
    var created := CreateTables(st);
    if created.outcome.Throw? then MigrationRun(created, [CreateTablesStep])
    else
      var migrated := if isFirstRun then MigrateFromAsyncStorage(created.store, legacy, migrateNow) else created;
      var ran := if isFirstRun then [CreateTablesStep, LegacyStep] else [CreateTablesStep];
      if migrated.outcome.Throw? then MigrationRun(migrated, ran)
      else
        var stamped := UpdateDatabaseVersion(DbVersion, migrated.store, stampNow);
        var rows := stamped.store.versions.value;
        assert stamped.outcome.Normal? ==> rows[|rows| - 1].version == DbVersion;
        MigrationRun(stamped, ran + [StampStep])
  }

  /** Creating the tables again after they exist changes nothing. */
  lemma CreateTablesIdempotent(st: Store)
    requires CreateTables(st).outcome.Normal?
    ensures CreateTables(CreateTables(st).store) == CreateTables(st)
  {
  }

  /** Without a first run the legacy list is never read: the run is the same whatever `getItem` would give. */
  lemma NotFirstRunIgnoresLegacy(st: Store, l1: Outcome<Option<seq<Ingredient>>, Thrown>, l2: Outcome<Option<seq<Ingredient>>, Thrown>, migrateNow: int, stampNow: int)
    ensures ExecuteMigrations(st, false, l1, migrateNow, stampNow) == ExecuteMigrations(st, false, l2, migrateNow, stampNow)
    ensures LegacyStep !in ExecuteMigrations(st, false, l1, migrateNow, stampNow).steps
  {
  }

  /**
   * A failed legacy batch leaves none of its records, but the tables created by the
   * committed first step stay, and the version is not stamped.
   */
  lemma LegacyFailureKeepsTables(st: Store, legacy: Outcome<Option<seq<Ingredient>>, Thrown>, migrateNow: int, stampNow: int)
    requires CreateTables(st).outcome.Normal?
    requires MigrateFromAsyncStorage(CreateTables(st).store, legacy, migrateNow).outcome.Throw?
    ensures var r := ExecuteMigrations(st, true, legacy, migrateNow, stampNow);
            && r.exec.outcome.Throw?
            && r.exec.store == CreateTables(st).store
            && StampStep !in r.steps
  {
  }

  /** A colliding id anywhere in the batch makes the whole legacy step fail and leaves the store as it was. */
  lemma DuplicateLegacyIdRollsBack(st: Store, items: seq<Ingredient>, now: int, i: int, j: int)
    requires st.ingredients.Some? && 0 <= i < j < |items| && items[i].id == items[j].id
    ensures MigrateFromAsyncStorage(st, Normal(Some(items)), now) == Exec(st, MigrateFromAsyncStorage(st, Normal(Some(items)), now).outcome)
    ensures MigrateFromAsyncStorage(st, Normal(Some(items)), now).outcome.Throw?
  {
  }

  /** Records migrated without timestamps all receive the one `now` read at the start of the batch. */
  lemma MissingTimestampsShareNow(st: Store, items: seq<Ingredient>, now: int, i: int, j: int)
    requires MigrateFromAsyncStorage(st, Normal(Some(items)), now).outcome.Normal?
    requires 0 <= i < |items| && 0 <= j < |items|
    requires items[i].createdAt.None? && items[j].updatedAt.None?
    ensures var t := MigrateFromAsyncStorage(st, Normal(Some(items)), now).store.ingredients.value;
            t[items[i].id].createdAt == t[items[j].id].updatedAt == now
  {
  }
}

=== FILE: result.dfy ===
/**
 * The success/failure container of api/common/result.ts.
 *
 * The class keeps three private fields (value, error, isSuccess) behind a private
 * constructor; the two static constructors only ever build (v, null, true) and
 * (null, e, false), but the raw triple is what `getValue` inspects, so the model
 * keeps the triple. `T | null` is `Option<T>`, a call that may throw returns an
 * `Outcome`, and a promise that has settled is a `Settled`.
 */
module Results {

  /** `T | null`: a value that may be absent. */
  datatype Option<T> = None | Some(value: T)

  /** The completion of a call: it returns a value or throws an exception. */
  datatype Outcome<T, X> = Normal(value: T) | Throw(exception: X)

  /** A promise after it has settled. */
  datatype Settled<T, X> = Resolved(value: T) | Rejected(reason: X)

  /** What `getValue` throws on a failure: the carried error, or a fresh generic Error. */
  datatype Raised<E> = Carried(error: E) | Generic(message: string)

  const NoValueMessage: string := "Cannot get value from a failed Result"

  /** The private representation of `Result<T, E>`. */
  datatype Result<T, E> = Result(value: Option<T>, error: Option<E>, isSuccess: bool)

  /** Both static constructors produce a result of this shape. */
  predicate WellFormed<T, E>(r: Result<T, E>)
  {
    if r.isSuccess then r.error.None? else r.value.None? && r.error.Some?
  }

  /** `Result.ok(value)`; the value may be null. */
  function Ok<T, E>(value: Option<T>): (r: Result<T, E>)
    ensures WellFormed(r) && r.isSuccess
  {
    Result(value, None, true)
  }

  /** `Result.fail(error)`. */
  function Fail<T, E>(error: E): (r: Result<T, E>)
    ensures WellFormed(r) && !r.isSuccess
  {
    Result(None, Some(error), false)
  }

  /** The `success` getter: on a result the constructors built, success is having no error. */
  predicate Success<T, E>(r: Result<T, E>): (b: bool)
    ensures WellFormed(r) ==> (b <==> r.error.None?)
  {
    r.isSuccess
  }

  /** `getValue()`: the payload on success; on failure it throws the error, or a generic one. */
  function GetValue<T, E>(r: Result<T, E>): (o: Outcome<Option<T>, Raised<E>>)
    ensures o.Normal? <==> Success(r)
    ensures o.Normal? ==> o.value == r.value
    ensures o.Throw? ==> o.exception == (if r.error.Some? then Carried(r.error.value) else Generic(NoValueMessage))
  {
    if !r.isSuccess then
      Throw(if r.error.Some? then Carried(r.error.value) else Generic(NoValueMessage))
    else
      Normal(r.value)
  }

  /** `getError()`: the stored error field, which is what `getValue()` throws on a failure. */
  function GetError<T, E>(r: Result<T, E>): (e: Option<E>)
    ensures WellFormed(r) ==> (e.Some? <==> !r.isSuccess)
    ensures !r.isSuccess && e.Some? ==> GetValue(r) == Throw(Carried(e.value))
    ensures !r.isSuccess && e.None? ==> GetValue(r) == Throw(Generic(NoValueMessage))
  {
    r.error
  }

  /** `Result.fail(this.error!)`: a failure carrying the same (possibly null) error. */
  function PropagateFailure<T, U, E>(r: Result<T, E>): (q: Result<U, E>)
    requires !r.isSuccess
    ensures !q.isSuccess && q.error == r.error && q.value.None?
  {
    Result(None, r.error, false)
  }

  /** `map(fn)`: apply `fn` to a success; a throw from `fn` becomes a failure. */
  function Map<T, U, E>(r: Result<T, E>, fn: Option<T> -> Outcome<Option<U>, E>): (q: Result<U, E>)
    ensures !r.isSuccess ==> q == PropagateFailure(r)
    ensures r.isSuccess && fn(r.value).Normal? ==> q == Ok(fn(r.value).value)
    ensures r.isSuccess && fn(r.value).Throw? ==> q == Fail(fn(r.value).exception)
  {
    if !r.isSuccess then PropagateFailure(r)
    else match fn(r.value)
      case Normal(u) => Ok(u)
      case Throw(x) => Fail(x)
  }

  /**
   * `asyncMap(fn)`: `fn` may throw before it returns a promise, or return a promise
   * that rejects; `await` inside the `try` turns both into a failure.
   */
  function AsyncMap<T, U, E>(r: Result<T, E>, fn: Option<T> -> Outcome<Settled<Option<U>, E>, E>): (q: Result<U, E>)
    ensures !r.isSuccess ==> q == PropagateFailure(r)
    ensures r.isSuccess ==> (q.isSuccess <==> fn(r.value).Normal? && fn(r.value).value.Resolved?)
  {
    if !r.isSuccess then PropagateFailure(r)
    else match fn(r.value)
      case Throw(x) => Fail(x)
      case Normal(Rejected(x)) => Fail(x)
      case Normal(Resolved(u)) => Ok(u)
  }

  /** Awaiting a settled promise: a rejection is thrown at the `await`. */
  function Await<T, X>(p: Outcome<Settled<T, X>, X>): Outcome<T, X>
  {
    match p
    case Throw(x) => Throw(x)
    case Normal(Rejected(x)) => Throw(x)
    case Normal(Resolved(v)) => Normal(v)
  }

  /** `Result.fromPromise(promise, errorMapper)`. */
  function FromPromise<T, X, E>(p: Settled<T, X>, errorMapper: X -> E): (r: Result<T, E>)
    ensures WellFormed(r)
    ensures r.isSuccess <==> p.Resolved?
    ensures p.Resolved? ==> r.value == Some(p.value)
    ensures p.Rejected? ==> r.error == Some(errorMapper(p.reason))
  {
    match p
    case Resolved(v) => Ok(Some(v))
    case Rejected(x) => Fail(errorMapper(x))
  }

  /** `Result.fromPromise(promise)` with the default mapper `(err) => err as E`. */
  function FromPromiseDefault<T, E>(p: Settled<T, E>): (r: Result<T, E>)
    ensures p.Rejected? ==> GetError(r) == Some(p.reason)
  {
    FromPromise(p, (x: E) => x)
  }

  /** `ok(v)` reports success, unwraps to exactly `v` (null included) and has no error. */
  lemma OkUnwraps<T, E>(v: Option<T>)
    ensures Success(Ok<T, E>(v))
    ensures GetValue(Ok<T, E>(v)) == Normal(v)
    ensures GetError(Ok<T, E>(v)) == None
  {
  }

  /** `fail(e)` reports failure, carries `e`, and unwrapping throws exactly `e`. */
  lemma FailUnwraps<T, E>(e: E)
    ensures !Success(Fail<T, E>(e))
    ensures GetError(Fail<T, E>(e)) == Some(e)
    ensures GetValue(Fail<T, E>(e)) == Throw(Carried(e))
  {
  }

  /** A failure without an error (reachable only through the private constructor) throws the generic Error. */
  lemma FailWithoutErrorThrowsGeneric<T, E>(r: Result<T, E>)
    requires !r.isSuccess && r.error.None?
    ensures GetValue(r) == Throw(Generic(NoValueMessage))
  {
  }

  /** `map` on a failure keeps the error and never looks at `fn`. */
  lemma MapFailureIgnoresFn<T, U, E>(r: Result<T, E>, f: Option<T> -> Outcome<Option<U>, E>, g: Option<T> -> Outcome<Option<U>, E>)
    requires !r.isSuccess
    ensures Map(r, f) == Map(r, g)
    ensures !Map(r, f).isSuccess && GetError(Map(r, f)) == GetError(r)
  {
  }

  /** Mapping a non-throwing identity leaves a well-formed result as it was. */
  lemma MapIdentity<T, E>(r: Result<T, E>)
    requires WellFormed(r)
    ensures Map(r, (v: Option<T>) => Normal(v)) == r
  {
  }

  /** Sequential composition of the callbacks `f` then `g`, with a throw from `f` skipping `g`. */
  function Then<T, U, V, E>(f: Option<T> -> Outcome<Option<U>, E>, g: Option<U> -> Outcome<Option<V>, E>): Option<T> -> Outcome<Option<V>, E>
  {
    (v: Option<T>) => match f(v) case Normal(u) => g(u) case Throw(x) => Throw(x)
  }

  /** Mapping twice is mapping once with the composed callback. */
  lemma MapComposes<T, U, V, E>(r: Result<T, E>, f: Option<T> -> Outcome<Option<U>, E>, g: Option<U> -> Outcome<Option<V>, E>)
    ensures Map(Map(r, f), g) == Map(r, Then(f, g))
  {
  }

  /** `asyncMap` is `map` with the awaited callback: a rejection behaves like a throw. */
  lemma AsyncMapIsMapOfAwait<T, U, E>(r: Result<T, E>, fn: Option<T> -> Outcome<Settled<Option<U>, E>, E>)
    ensures AsyncMap(r, fn) == Map(r, (v: Option<T>) => Await(fn(v)))
  {
  }

  /** With the default mapper, a rejected promise fails with the rejection reason itself. */
  lemma FromPromiseDefaultIsIdentity<T, E>(p: Settled<T, E>)
    ensures FromPromiseDefault(p) == (match p case Resolved(v) => Ok(Some(v)) case Rejected(x) => Fail(x))
  {
  }
}

=== FILE: sqlite.dfy ===
/**
 * An abstract embedded store standing in for the SQLite database the core talks to.
 *
 * Only what the core relies on is kept: which of the two tables exist, their rows,
 * the primary keys (`ingredients.id`, `database_version.version`), `IF NOT EXISTS`,
 * `UPDATE/DELETE ... WHERE id = ?` touching at most the matching row, and the
 * all-or-nothing behaviour of a transaction. Failures the engine may raise for
 * reasons the core cannot see (I/O errors, a locked file) are an input: `failing`
 * lists the statement kinds the engine rejects, and no operation changes it.
 */
module Sqlite {
  import opened Results
  import opened Errors

  /** A stored `ingredients` row; its primary key `id` is the key of the table map. */
  datatype Row = Row(name: string, completed: int, createdAt: int, updatedAt: int)

  type Table = map<string, Row>

  /** A `database_version` row. */
  datatype VersionRow = VersionRow(version: int, migrationDate: int)

  /** The statement kinds the core issues. */
  datatype Stmt =
    | CatalogQuery
    | CreateIngredientsTable
    | CreateVersionTable
    | SelectIngredients
    | InsertIngredient
    | UpdateIngredient
    | DeleteIngredient
    | SelectMaxVersion
    | InsertVersion

  /** The two tables, each absent or present, and the statement kinds the engine rejects. */
  datatype Store = Store(ingredients: Option<Table>, versions: Option<seq<VersionRow>>, failing: set<Stmt>)

  /** Running one or more statements: the store afterwards and whether the last call returned or threw. */
  datatype Exec<T> = Exec(store: Store, outcome: Outcome<T, Thrown>)

  const IoError: Thrown := Plain("disk I/O error")
  const NoIngredientsTable: Thrown := Plain("no such table: ingredients")
  const NoVersionTable: Thrown := Plain("no such table: database_version")
  const DuplicateId: Thrown := Plain("UNIQUE constraint failed: ingredients.id")
  const DuplicateVersion: Thrown := Plain("UNIQUE constraint failed: database_version.version")

  /** An empty store: a fresh database file with neither table. */
  function Fresh(failing: set<Stmt>): Store
  {
    Store(None, None, failing)
  }

  /** The `version INTEGER PRIMARY KEY` constraint holds. */
  predicate DistinctVersions(rows: seq<VersionRow>)
  {
    forall i, j :: 0 <= i < j < |rows| ==> rows[i].version != rows[j].version
  }

  predicate HasVersion(rows: seq<VersionRow>, v: int)
  {
    exists i :: 0 <= i < |rows| && rows[i].version == v
  }

  /** `SELECT version ... ORDER BY version DESC LIMIT 1`: the largest stored version, if any row exists. */
  function MaxVersion(rows: seq<VersionRow>): (m: Option<int>)
    ensures m.None? <==> |rows| == 0
    ensures m.Some? ==> HasVersion(rows, m.value)
    ensures m.Some? ==> forall i :: 0 <= i < |rows| ==> rows[i].version <= m.value
  {
    if |rows| == 0 then None
    else
      var rest := MaxVersion(rows[1..]);
      if rest.None? || rows[0].version >= rest.value then
        Some(rows[0].version)
      else
        assert rows[1..][0] == rows[1];
        assert forall i :: 1 <= i < |rows| ==> rows[i] == rows[1..][i - 1];
        rest
  }

  /** The catalog lookup `SELECT ... FROM sqlite_master WHERE name='database_version'`: does the table exist? */
  function VersionTableListed(st: Store): (o: Outcome<bool, Thrown>)
    ensures o.Throw? <==> CatalogQuery in st.failing
    ensures o.Normal? ==> (o.value <==> st.versions.Some?)
  {
    if CatalogQuery in st.failing then Throw(IoError) else Normal(st.versions.Some?)
  }

  /** `CREATE TABLE IF NOT EXISTS ingredients (...)`. */
  function CreateIngredients(st: Store): (x: Exec<()>)
    ensures x.outcome.Normal? <==> CreateIngredientsTable !in st.failing
    ensures x.outcome.Normal? ==> x.store == st.(ingredients := Some(if st.ingredients.Some? then st.ingredients.value else map[]))
    ensures x.outcome.Throw? ==> x.store == st
  {
    if CreateIngredientsTable in st.failing then Exec(st, Throw(IoError))
    else if st.ingredients.Some? then Exec(st, Normal(()))
    else Exec(st.(ingredients := Some(map[])), Normal(()))
  }

  /** `CREATE TABLE IF NOT EXISTS database_version (...)`. */
  function CreateVersions(st: Store): (x: Exec<()>)
    ensures x.outcome.Normal? <==> CreateVersionTable !in st.failing
    ensures x.outcome.Normal? ==> x.store == st.(versions := Some(if st.versions.Some? then st.versions.value else []))
    ensures x.outcome.Throw? ==> x.store == st
  {
    if CreateVersionTable in st.failing then Exec(st, Throw(IoError))
    else if st.versions.Some? then Exec(st, Normal(()))
    else Exec(st.(versions := Some([])), Normal(()))
  }

  /** The whole `ingredients` table, as a `SELECT` sees it. */
  function SelectAll(st: Store): (o: Outcome<Table, Thrown>)
    ensures o.Normal? <==> st.ingredients.Some? && SelectIngredients !in st.failing
    ensures o.Normal? ==> o.value == st.ingredients.value
  {
    if st.ingredients.None? then Throw(NoIngredientsTable)
    else if SelectIngredients in st.failing then Throw(IoError)
    else Normal(st.ingredients.value)
  }

  /** `INSERT INTO ingredients ... VALUES (?, ...)`: fails on a missing table or an existing id. */
  function InsertRow(st: Store, id: string, row: Row): (x: Exec<()>)
    ensures x.outcome.Normal? <==> st.ingredients.Some? && InsertIngredient !in st.failing && id !in st.ingredients.value
    ensures x.outcome.Normal? ==> x.store == st.(ingredients := Some(st.ingredients.value[id := row]))
    ensures x.outcome.Throw? ==> x.store == st
  {
    if st.ingredients.None? then Exec(st, Throw(NoIngredientsTable))
    else if InsertIngredient in st.failing then Exec(st, Throw(IoError))
    else if id in st.ingredients.value then Exec(st, Throw(DuplicateId))
    else Exec(st.(ingredients := Some(st.ingredients.value[id := row])), Normal(()))
  }

  /** `UPDATE ingredients SET ... WHERE id = ?`: rewrites the matching row, if any. */
  function UpdateRow(st: Store, id: string, change: Row -> Row): (x: Exec<()>)
    ensures x.outcome.Normal? <==> st.ingredients.Some? && UpdateIngredient !in st.failing
    ensures x.outcome.Normal? && id in st.ingredients.value ==>
      x.store == st.(ingredients := Some(st.ingredients.value[id := change(st.ingredients.value[id])]))
    ensures x.outcome.Normal? && id !in st.ingredients.value ==> x.store == st
    ensures x.outcome.Throw? ==> x.store == st
  {
    if st.ingredients.None? then Exec(st, Throw(NoIngredientsTable))
    else if UpdateIngredient in st.failing then Exec(st, Throw(IoError))
    else if id in st.ingredients.value then
      Exec(st.(ingredients := Some(st.ingredients.value[id := change(st.ingredients.value[id])])), Normal(()))
    else Exec(st, Normal(()))
  }

  /** `DELETE FROM ingredients WHERE id = ?`. */
  function DeleteRow(st: Store, id: string): (x: Exec<()>)
    ensures x.outcome.Normal? <==> st.ingredients.Some? && DeleteIngredient !in st.failing
    ensures x.outcome.Normal? ==> x.store == st.(ingredients := Some(st.ingredients.value - {id}))
    ensures x.outcome.Throw? ==> x.store == st
  {
    if st.ingredients.None? then Exec(st, Throw(NoIngredientsTable))
    else if DeleteIngredient in st.failing then Exec(st, Throw(IoError))
    else Exec(st.(ingredients := Some(st.ingredients.value - {id})), Normal(()))
  }

  /** The first row of `SELECT version FROM database_version ORDER BY version DESC LIMIT 1`. */
  function SelectLatestVersion(st: Store): (o: Outcome<Option<int>, Thrown>)
    ensures o.Normal? <==> st.versions.Some? && SelectMaxVersion !in st.failing
    ensures o.Normal? ==> o.value == MaxVersion(st.versions.value)
  {
    if st.versions.None? then Throw(NoVersionTable)
    else if SelectMaxVersion in st.failing then Throw(IoError)
    else Normal(MaxVersion(st.versions.value))
  }

  /** `INSERT INTO database_version (version, migration_date) VALUES (?, ?)`: appends one row. */
  function InsertVersionRow(st: Store, version: int, date: int): (x: Exec<()>)
    ensures x.outcome.Normal? <==> st.versions.Some? && InsertVersion !in st.failing && !HasVersion(st.versions.value, version)
    ensures x.outcome.Normal? ==> x.store == st.(versions := Some(st.versions.value + [VersionRow(version, date)]))
    ensures x.outcome.Throw? ==> x.store == st
  {
    if st.versions.None? then Exec(st, Throw(NoVersionTable))
    else if InsertVersion in st.failing then Exec(st, Throw(IoError))
    else if HasVersion(st.versions.value, version) then Exec(st, Throw(DuplicateVersion))
    else Exec(st.(versions := Some(st.versions.value + [VersionRow(version, date)])), Normal(()))
  }

  /**
   * `withTransactionAsync(body)`: `body` ran from `before` and produced `run`; a body
   * that threw is rolled back to `before` and its exception is rethrown.
   */
  function Transaction(before: Store, run: Exec<()>): (x: Exec<()>)
    ensures x.outcome == run.outcome
    ensures x.outcome.Normal? ==> x.store == run.store
    ensures x.outcome.Throw? ==> x.store == before
  {
    if run.outcome.Normal? then run else Exec(before, run.outcome)
  }

  /** A successful insert keeps the primary key of `database_version` unique. */
  lemma InsertVersionKeepsDistinct(st: Store, version: int, date: int)
    requires st.versions.Some? && DistinctVersions(st.versions.value)
    requires InsertVersionRow(st, version, date).outcome.Normal?
    ensures DistinctVersions(InsertVersionRow(st, version, date).store.versions.value)
  {
    var rows := st.versions.value;
    var rows' := InsertVersionRow(st, version, date).store.versions.value;
    assert rows' == rows + [VersionRow(version, date)];
    forall i, j | 0 <= i < j < |rows'|
      ensures rows'[i].version != rows'[j].version
    {
      if j == |rows| {
        assert rows'[i] == rows[i];
        assert !HasVersion(rows, version);
      }
    }
  }
}

=== FILE: use_ingredients.dfy ===
/**
 * hooks/useIngredients.ts: the view state behind the ingredient list.
 *
 * `ingredientsReducer` is a pure state machine over `{ ingredients, isLoading, error }`.
 * The two list actions compute the optimistic list with a `map` over the current
 * ingredients, dispatch it, await the service, and roll back to the captured original
 * list if the await throws. The awaited call is an input here (it returns or throws),
 * and the dispatches are applied one after the other.
 */
module UseIngredients {
  import opened Results
  import opened Errors
  import opened Ingredients
  import opened Sqlite
  import IngredientService

  /** `IngredientsState`; `error: string | null` is an `Option<string>`. */
  datatype ViewState = ViewState(ingredients: seq<Ingredient>, isLoading: bool, error: Option<string>)

  /** `IngredientsAction`, plus any other `type` tag, which the reducer ignores. */
  datatype Action =
    | FetchStart
    | FetchSuccess(payload: seq<Ingredient>)
    | FetchError(message: string)
    | OptimisticUpdate(payload: seq<Ingredient>)
    | UpdateErrorRollback(originalIngredients: seq<Ingredient>, error: string)
    | ClearError
    | Unrecognized(tag: string)

  /** The state `useReducer` starts from: nothing loaded yet, loading, no error. */
  const InitialState: ViewState := ViewState([], true, None)

  /** The actions that write `ingredients`. */
  predicate SetsIngredients(a: Action)
  {
    a.FetchSuccess? || a.OptimisticUpdate? || a.UpdateErrorRollback?
  }

  /** The actions that write `isLoading`. */
  predicate SetsLoading(a: Action)
  {
    a.FetchStart? || a.FetchSuccess? || a.FetchError?
  }

  /** The error message an action leaves, when it writes one. */
  predicate SetsError(a: Action)
  {
    a.FetchError? || a.UpdateErrorRollback?
  }

  /**
   * `ingredientsReducer(state, action)`: each action writes only its own fields;
   * every action that writes `error` either sets its message or clears it.
   */
  function Reduce(s: ViewState, a: Action): (t: ViewState)
    ensures !SetsIngredients(a) ==> t.ingredients == s.ingredients
    ensures SetsIngredients(a) ==> t.ingredients == (if a.UpdateErrorRollback? then a.originalIngredients else a.payload)
    ensures !SetsLoading(a) ==> t.isLoading == s.isLoading
    ensures SetsLoading(a) ==> (t.isLoading <==> a.FetchStart?)
    ensures a.FetchError? ==> t.error == Some(a.message)
    ensures a.UpdateErrorRollback? ==> t.error == Some(a.error)
    ensures a.Unrecognized? ==> t == s
    ensures !SetsError(a) && !a.Unrecognized? ==> t.error == None
  {
    match a
    case FetchStart => s.(isLoading := true, error := None)
    case FetchSuccess(payload) => s.(isLoading := false, ingredients := payload, error := None)
    case FetchError(message) => s.(isLoading := false, error := Some(message))
    case OptimisticUpdate(payload) => s.(ingredients := payload, error := None)
    case UpdateErrorRollback(original, error) => s.(ingredients := original, error := Some(error))
    case ClearError => s.(error := None)
    case Unrecognized(_) => s
  }

  /** The first render shows an empty list already loading, so the mount-time `FETCH_START` changes nothing. */
  lemma InitialStateIsLoading()
    ensures InitialState.ingredients == [] && InitialState.isLoading && InitialState.error.None?
    ensures Reduce(InitialState, FetchStart) == InitialState
  {
  }

  /** A fetch that starts and then succeeds shows exactly the fetched list, from any state. */
  lemma FetchCycle(s: ViewState, items: seq<Ingredient>)
    ensures Reduce(Reduce(s, FetchStart), FetchSuccess(items)) == ViewState(items, false, None)
  {
  }

  /** A fetch that starts and then fails keeps the list and reports the message. */
  lemma FetchFailureKeepsList(s: ViewState, message: string)
    ensures Reduce(Reduce(s, FetchStart), FetchError(message)) == ViewState(s.ingredients, false, Some(message))
  {
  }

  /** Clearing the error twice is clearing it once, and leaves the list and the flag alone. */
  lemma ClearErrorIdempotent(s: ViewState)
    ensures Reduce(Reduce(s, ClearError), ClearError) == Reduce(s, ClearError)
    ensures Reduce(s, ClearError).ingredients == s.ingredients && Reduce(s, ClearError).isLoading == s.isLoading
  {
  }

  /** An optimistic update followed by a rollback to the list captured before it restores that list. */
  lemma OptimisticThenRollback(s: ViewState, optimistic: seq<Ingredient>, message: string)
    ensures Reduce(Reduce(s, OptimisticUpdate(optimistic)), UpdateErrorRollback(s.ingredients, message))
            == s.(error := Some(message))
  {
  }

  /** One element of the toggle `map`. */
  function ToggleOne(element: Ingredient, id: string): Ingredient
  {
    if element.id == id then element.(completed := !element.completed) else element
  }

  /** One element of the rename `map`. */
  function RenameOne(element: Ingredient, id: string, newName: string): Ingredient
  {
    if element.id == id then element.(name := newName) else element
  }

  /** The toggle mapping: same length and order, `completed` flipped exactly where the id matches. */
  function ToggleCompletion(items: seq<Ingredient>, id: string): (r: seq<Ingredient>)
    ensures |r| == |items|
    ensures forall i :: 0 <= i < |items| ==>
      && r[i].id == items[i].id && r[i].name == items[i].name
      && r[i].createdAt == items[i].createdAt && r[i].updatedAt == items[i].updatedAt
      && (r[i].completed <==> (items[i].completed != (items[i].id == id)))
    decreases |items|
  {
    if |items| == 0 then [] else [ToggleOne(items[0], id)] + ToggleCompletion(items[1..], id)
  }

  /** The rename mapping: same length and order, `name` set exactly where the id matches. */
  function Rename(items: seq<Ingredient>, id: string, newName: string): (r: seq<Ingredient>)
    ensures |r| == |items|
    ensures forall i :: 0 <= i < |items| ==>
      && r[i].id == items[i].id && r[i].completed == items[i].completed
      && r[i].createdAt == items[i].createdAt && r[i].updatedAt == items[i].updatedAt
      && r[i].name == (if items[i].id == id then newName else items[i].name)
    decreases |items|
  {
    if |items| == 0 then [] else [RenameOne(items[0], id, newName)] + Rename(items[1..], id, newName)
  }

  /** Toggling the same id twice gives back the original list. */
  lemma ToggleInvolution(items: seq<Ingredient>, id: string)
    ensures ToggleCompletion(ToggleCompletion(items, id), id) == items
  {
    var once := ToggleCompletion(items, id);
    var twice := ToggleCompletion(once, id);
    assert forall i :: 0 <= i < |items| ==> twice[i] == items[i];
  }

  /** Renaming to the same name twice is renaming once. */
  lemma RenameIdempotent(items: seq<Ingredient>, id: string, newName: string)
    ensures Rename(Rename(items, id, newName), id, newName) == Rename(items, id, newName)
  {
    var once := Rename(items, id, newName);
    var twice := Rename(once, id, newName);
    assert forall i :: 0 <= i < |items| ==> twice[i] == once[i];
  }

  /** An id absent from the list leaves both mappings without effect. */
  lemma AbsentIdChangesNothing(items: seq<Ingredient>, id: string, newName: string)
    requires forall i :: 0 <= i < |items| ==> items[i].id != id
    ensures ToggleCompletion(items, id) == items
    ensures Rename(items, id, newName) == items
  {
    var t := ToggleCompletion(items, id);
    var n := Rename(items, id, newName);
    assert forall i :: 0 <= i < |items| ==> t[i] == items[i] && n[i] == items[i];
  }

  /** `err instanceof Error ? err.message : "Unknown error"`; every thrown value here is an `Error`. */
  function MessageOf(x: Thrown): string
  {
    match x
    case App(e) => e.message
    case Plain(message) => message
  }

  /**
   * The shared tail of both list actions: dispatch the optimistic list, then, if the
   * awaited `Update` throws, dispatch the rollback to the list captured before.
   */
  function Optimistic(s: ViewState, updated: seq<Ingredient>, call: Outcome<(), Thrown>, prefix: string): ViewState
  {
    var shown := Reduce(s, OptimisticUpdate(updated));
    match call
    case Normal(_) => shown
    case Throw(x) => Reduce(shown, UpdateErrorRollback(s.ingredients, prefix + MessageOf(x)))
  }

  /**
   * `toggleIngredientCompletion(id)`: the list shows the toggle when `Update` returns;
   * when it throws the list is the original one and the error names the failure.
   */
  function ToggleIngredientCompletion(s: ViewState, id: string, call: Outcome<(), Thrown>): (t: ViewState)
    ensures t.isLoading == s.isLoading
    ensures call.Normal? ==> t.ingredients == ToggleCompletion(s.ingredients, id) && t.error == None
    ensures call.Throw? ==> t.ingredients == s.ingredients && t.error == Some("Failed to update completion: " + MessageOf(call.exception))
  {
    Optimistic(s, ToggleCompletion(s.ingredients, id), call, "Failed to update completion: ")
  }

  /**
   * `changeIngredientName(id, newName)`: the list shows the new name when `Update`
   * returns; when it throws the list is the original one and the error names the failure.
   */
  function ChangeIngredientName(s: ViewState, id: string, newName: string, call: Outcome<(), Thrown>): (t: ViewState)
    ensures t.isLoading == s.isLoading
    ensures call.Normal? ==> t.ingredients == Rename(s.ingredients, id, newName) && t.error == None
    ensures call.Throw? ==> t.ingredients == s.ingredients && t.error == Some("Failed to change name: " + MessageOf(call.exception))
  {
    Optimistic(s, Rename(s.ingredients, id, newName), call, "Failed to change name: ")
  }

  /**
   * `IngredientService.Update` swallows every error, so the awaited call always returns:
   * over a store that rejects `UPDATE`, the list shows the toggle with no error although
   * the service cache, and the table, keep the old list.
   */
  lemma FailedWriteStillShown(s: ViewState, id: string, svc: IngredientService.Service, st: Store, updateNow: int)
    requires |s.ingredients| > 0
    requires st.ingredients.None? || UpdateIngredient in st.failing
    ensures var toggled := ToggleCompletion(s.ingredients, id);
            var u := IngredientService.Update(svc, st, toggled, IngredientService.StoreUpdate(updateNow));
            && u.service == svc
            && u.repo == st
            && ToggleIngredientCompletion(s, id, Normal(())) == s.(ingredients := toggled, error := None)
  {
    var toggled := ToggleCompletion(s.ingredients, id);
    IngredientService.UpdateOverStore(svc, st, toggled, updateNow);
    IngredientService.ThrowKeepsCache(svc, st, toggled, IngredientService.StoreUpdate(updateNow), 0);
  }
}
